=== FILE: README.md ===
# Achievements: a Dafny model of the replayable achievement engine

The achievements server receives GitLab webhooks. It logs every accepted
body. It then runs the rule checkers registered for the event's
`object_kind`, and it records the unlocks they propose in a user store. At
startup the user store file is deleted and the store is rebuilt by
replaying the webhook log.

This project models that core as pure functions over immutable values:

- `parseUser`, which takes the actor out of a body (`BodyParser`).
- The SQLite user store: identity resolution, unlocks, per-achievement
  metadata and the read endpoints' queries (`UserStore`).
- The push, comment and pipeline checkers (`PushHooks`, `CommentHooks`,
  `PipelineHooks`), with the JavaScript value semantics they rely on (`Js`).
- The calendar arithmetic behind `getUTCHours` and the per-day bucket
  labels (`UtcDate`, `Decimal`).
- `hookByKind` and the hook lists (`Registry`).
- `executeHooks` (`Engine`).
- The webhook log (`WebhookLog`).
- The `/webhook` handler, the startup replay and the `/users` endpoints
  (`Server`).
- The older in-memory state helpers (`LegacyState`).

Things the model takes as parameters:

- Date strings are parsed by a `parseDate` function.
- `JSON.stringify`, `JSON.parse` and md5 come as a `Codec`.
- The five hook modules whose source is not part of this model are given by
  `Env.opaqueCount` and `Env.opaqueHook`.
- Clock readings are plain integers.
- Storage failures are booleans.

A uuid is a serial number minted by the store. `UuidText` renders it as text.
The program draws random version 4 uuids instead; "## Left out" says what
that changes.

Behaviour worth knowing:

- An existing user row is written back as it was, so a later event never
  fills in its missing fields.
- The webhook table has no key, so the same body stored twice is two rows. The
  `INSERT OR IGNORE` and the "Ignoring if duplicate" comment at
  src/webhook-store.js:28-30 suggest that duplicates were meant to be dropped.
- Identity lookup is one `uuid = ? OR id = ? OR username = ? OR email = ?`
  query. The model takes the first matching row in table order, which is an
  assumption about SQLite (see "## Left out").
- A throwing checker stops the remaining checkers for that event. In the live
  handler it turns into a 500. During replay it is caught per webhook, but a
  `null` stored body aborts the whole replay.
- 'Night's watchman' accepts the hours 1 to 3 inclusive.
- 'Not your day' buckets a failure by the pipeline's own `created_at`, with a
  0-based month in the label.
- Replay passes each row's ingest time to `executeHooks`. That time becomes
  the timestamp of new unlocks and the body's `_webhook_timestamp` field. The
  modelled checkers never read that field (`Engine.RunHooksStampInvisible`).
  The checkers of the five unmodelled hook modules do receive it, and may
  behave differently for a different time.
- A failed delete of the user store file is only logged
  (src/index.js:155-160). If the file survives, the replay runs on top of
  the old store. Unlocks are then no-ops, but the 'Reviewer Rank' and 'Not
  your day' counters are raised a second time.

## Model

| member | source | states |
|---|---|---|
| BodyParser.ParseUser | src/utils/body-parser.js:6-23 | The nested shape is chosen exactly when `body.user` is truthy. Its `id` is null, it has no email key, and name, username and avatar come from `user`. Otherwise the five flat `user_*` fields are copied. |
| BodyParser.ParseUserKeys | src/utils/body-parser.js:6-23 | The fragment never has a uuid. It lacks an email key exactly when the nested shape was chosen. |
| BodyParser.ParseUserLocal | src/utils/body-parser.js:6-23 | Two bodies that agree on the six fields read give the same fragment. |
| BodyParser.NullUserIsFlat | src/utils/body-parser.js:7 | A `null` user object is falsy, so the flat shape with `user_email` is used. |
| BodyParser.ParseAdministrator | src/utils/body-parser.js:7-13 | On a nested-shape body the name is `user.name`, the id is null, and there is no email. |
| Js.Get | src/hooks/comment.js:35 | A property read throws a TypeError exactly when the object is `undefined` or `null`. Otherwise it yields the member. |
| UserStore.UuidTextInjective | src/user-store.js:15 | Distinct minted uuids have distinct text, as the primary key requires. |
| UserStore.FirstMatch | src/user-store.js:23-28 | Finds the first row at or after `from` that satisfies the OR query, or reports that none does. |
| UserStore.LookupUser | src/user-store.js:23-28 | `lookupUser` is null exactly when no row matches. Otherwise it is a matching row with no matching row before it. |
| UserStore.CreateOrUpdateUser | src/user-store.js:35-52 | A found user leaves the store and the fragment unchanged and yields the row's uuid. An unknown user appends a row with a freshly minted uuid and sets that uuid on the fragment. The fragment's other keys never change. |
| UserStore.CreateOrUpdateFindsRow | src/user-store.js:35-52 | The returned uuid names a row that matches the returned fragment. |
| UserStore.CreateOrUpdatePreservesValid | src/user-store.js:35-52 | Rows never share a uuid or a non-null id, username or email. Every referenced uuid has been minted. |
| UserStore.ResolvedIsMinted | src/user-store.js:35-52 | In a valid store the resolved uuid has been minted. |
| UserStore.ResolveReadsUsersOnly | src/user-store.js:23-52 | Resolution depends only on the users table and the uuid supply. |
| UserStore.CreateOrUpdateIdempotent | src/user-store.js:35-52 | Resolving the same fragment object again finds the same user and changes nothing. |
| UserStore.ResolveFreshCopy | src/user-store.js:35-52 | A fresh copy of an identified fragment resolves to the user the first call found or created, without change. |
| UserStore.AnonymousActorDuplicates | src/user-store.js:24-45 | A fragment with no uuid, id, username or email matches nothing, so each resolution adds another row. |
| UserStore.ResolveAfterGrowth | src/user-store.js:23-69 | Once a fragment finds a row, it keeps finding the same user after rows and unlocks are appended. An unlock it had stays visible. |
| UserStore.UserHasAchievement | src/user-store.js:61-69 | Resolves the user first. The answer is true exactly when the unlocks table holds that (uuid, name) pair. |
| UserStore.UnlockAchievement | src/user-store.js:78-86 | `INSERT OR IGNORE` on the (user, name) key. An existing pair keeps its first timestamp. A new pair is appended with the given timestamp. Metadata is untouched. |
| UserStore.UnlockPreservesValid | src/user-store.js:78-86 | Unlocking keeps the store's key constraints. |
| UserStore.AppendUnlockKeepsValid | src/user-store.js:16 | Appending a pair that is not yet present, for a minted user, keeps the (user, name) key unique. |
| UserStore.UnlockIdempotent | src/user-store.js:83-84 | A second unlock of the same pair changes nothing, whatever its timestamp. |
| UserStore.UnlockThenHas | src/user-store.js:61-86 | After an unlock the same fragment object reports the achievement. |
| UserStore.UnlockThenHasFreshCopy | src/user-store.js:61-86 | After an unlock, a fresh copy of an identified fragment finds the user and reports the achievement. |
| UserStore.AchievementsOf | src/user-store.js:113-119 | Exactly the user's unlock rows, without the user column. Each row appears as often as it is in the table, so once in a keyed table. |
| UserStore.GetUser | src/user-store.js:107-123 | Null exactly when no row has that uuid text. Otherwise it is a stored row with that uuid and exactly its unlocks. |
| UserStore.GetUsers | src/user-store.js:91-101 | One `getUser` per row of the users table, in table order. |
| UserStore.GetUsersFindsEveryRow | src/user-store.js:91-101 | In a valid store every listed uuid finds its own row. |
| UserStore.GetMetadata | src/hooks/comment.js:42 | Resolves the user, then reads its record for the achievement, or an empty record. |
| UserStore.SetMetadata | src/hooks/comment.js:45 | Overwrites only the resolved user's record for the achievement. Unlocks are untouched. |
| UserStore.ClearMetadata | src/hooks/comment.js:49 | Deletes only the resolved user's record for the achievement. Unlocks are untouched. |
| UserStore.MetadataOnResolved | src/hooks/pipeline.js:25-34 | For an actor already resolved, reading, setting and clearing metadata touch only that actor's record for the achievement. |
| UserStore.SetThenGet | src/hooks/pipeline.js:25-29 | Reading back through the same fragment gives the value set. |
| UserStore.ClearThenGet | src/hooks/pipeline.js:34 | After a clear, reading through the same fragment gives an empty record. |
| UserStore.MetadataPreservesValid | src/hooks/comment.js:42-49 | The metadata operations and `userHasAchievement` keep the store's constraints. |
| UserStore.MetadataChangeKeepsValid | src/hooks/pipeline.js:25-34 | A change confined to metadata keyed by minted uuids keeps the store valid. |
| Decimal.NatToStringInjective | src/hooks/pipeline.js:20-23 | Distinct numbers print differently. |
| Decimal.IntToStringInjective | src/hooks/pipeline.js:20-23 | Distinct years print differently, negative ones included. |
| Decimal.Pad2Injective | src/hooks/pipeline.js:21-22 | `padStart(2, '0')` of distinct month or day numbers differ. |
| Decimal.NatToString | src/hooks/pipeline.js:20-22 | The string is all decimal digits, has no leading zero, and denotes the number. |
| Decimal.IntToString | src/hooks/pipeline.js:20 | A minus sign exactly for negative numbers, followed by digits denoting the magnitude. |
| Decimal.Pad2 | src/hooks/pipeline.js:21-22 | `padStart(2, '0')` of a number below 100 is two digits denoting that number. |
| UtcDate.ToDate | src/hooks/push.js:30 | `new Date(undefined)` is invalid and `new Date(null)` is the epoch. A string, array or object is turned into its string (an array joins its items with commas) and parsed. A valid time lies within the TimeClip range. |
| UtcDate.SingletonArrayDate | src/hooks/push.js:30 | `new Date([s])` is the same date as `new Date(s)`. |
| UtcDate.HourOf | src/hooks/push.js:32 | `getUTCHours` is in 0..23 and locates the time within its day. |
| UtcDate.SplitYear | src/hooks/pipeline.js:20 | The year and the day of that year add up to the day number. |
| UtcDate.SplitMonth | src/hooks/pipeline.js:21-22 | A 0-based month and a day within that month's length locate the day of the year. |
| UtcDate.MonthLength | src/hooks/pipeline.js:21-22 | Every month has 28 to 31 days, and 29 exactly for February of a leap year. |
| UtcDate.CivilOfDay | src/hooks/pipeline.js:20-22 | Year, 0-based month and a day within that month's length that add back up to the day number. |
| UtcDate.DateUnique | src/hooks/pipeline.js:20-22 | A day number has only one calendar date, so the year, month and day `getUTCFullYear`, `getUTCMonth` and `getUTCDate` give are determined. |
| UtcDate.CivilOfDayInjective | src/hooks/pipeline.js:20-22 | Distinct days have distinct calendar dates. |
| UtcDate.LabelInjective | src/hooks/pipeline.js:23 | Distinct calendar dates have distinct `${year}-${month}-${day}` labels. |
| UtcDate.DateKeyIsCalendarDate | src/hooks/pipeline.js:19-23 | An invalid date gives exactly "NaN-NaN-NaN". A valid one gives the label of its UTC calendar date. |
| UtcDate.DateKeySameDay | src/hooks/pipeline.js:19-23 | Two valid times share a bucket exactly when they fall on the same UTC day. |
| UtcDate.DateKeyInvalidDistinct | src/hooks/pipeline.js:19-23 | An invalid date's "NaN-NaN-NaN" bucket is not used by any valid date. |
| UtcDate.EpochKey | src/hooks/pipeline.js:21 | The epoch is labelled "1970-00-01", because months are 0-based. |
| PushHooks.CheckFirstBlood | src/hooks/push.js:10-16 | Proposes 'First blood' for the parsed actor exactly when the actor does not have it yet. |
| PushHooks.Iterate | src/hooks/push.js:29 | `for...of` yields an array's items, and throws on `undefined` or `null`. |
| PushHooks.ScanCommits | src/hooks/push.js:29-37 | A true answer means some commit is a night commit, false means none is, and a throw is a TypeError caused by a `null` entry. |
| PushHooks.ScanFindsNightCommit | src/hooks/push.js:29-37 | The loop answers true exactly when some commit has a UTC hour from 1 to 3 and no `null` entry comes before it. |
| PushHooks.ScanThrowsOnNull | src/hooks/push.js:29-31 | The loop throws exactly when a `null` entry comes before any night commit. |
| PushHooks.CheckNightsWatchman | src/hooks/push.js:24-40 | Nothing for an actor who has it. Otherwise it throws exactly when iteration or the scan throws, and proposes exactly when the scan finds a night commit. At most one proposal, crediting the parsed actor. |
| PushHooks.NoCommitsNoWatchman | src/hooks/push.js:29-39 | An empty commit array proposes nothing. |
| CommentHooks.CheckYouSeeMyPoint | src/hooks/comment.js:10-18 | Nothing for an actor who has it. A truthy `merge_request` proposes it. Otherwise the checker returns `undefined`. |
| CommentHooks.CheckReviewerRank | src/hooks/comment.js:26-61 | An actor with Grandmaster gets nothing. Otherwise the merge-request part decides. At most one proposal, crediting the parsed actor. |
| CommentHooks.ReviewComment | src/hooks/comment.js:31-40 | No merge request gives nothing. It throws exactly when `object_attributes` is nullish. A comment by the merge request's author gives nothing, and a throw leaves the store alone. |
| CommentHooks.CountComment | src/hooks/comment.js:42-60 | At most one proposal, for the same actor. |
| CommentHooks.RankStep | src/hooks/comment.js:47-60 | At most one proposal, for the actor the count belongs to. |
| CommentHooks.BumpComments | src/hooks/comment.js:42-45 | The actor object keeps its identity fields. |
| CommentHooks.CountCommentSpec | src/hooks/comment.js:42-60 | The counter becomes one more than stored (0 when absent). It is deleted exactly at 200. The rank of the new count is proposed only at 25, 75, 150 and 200. Users and unlocks are unchanged. |
| CommentHooks.ReviewerRankDelegates | src/hooks/comment.js:26-45 | A counting comment by an actor without Grandmaster goes to the counter. |
| CommentHooks.ReviewerRankCounts | src/hooks/comment.js:26-61 | A counting comment returns the tier result of the stored count plus one. The counter is deleted exactly at 200 and is otherwise set to that count. |
| CommentHooks.ReviewerRankFrame | src/hooks/comment.js:42-50 | The checker changes only the actor's 'Reviewer Rank' record, never users or unlocks, beyond resolving the actor. |
| CommentHooks.ReviewerRankPreservesValid | src/hooks/comment.js:26-61 | The checker keeps the store's constraints. |
| PipelineHooks.CheckNotYourDay | src/hooks/pipeline.js:10-39 | Nothing for an actor who has it. It throws exactly when `object_attributes` is nullish. A status other than "failed" gives nothing. At most one proposal, crediting the parsed actor. |
| PipelineHooks.CountFailure | src/hooks/pipeline.js:25-38 | Always an array with at most one proposal, for the same actor. |
| PipelineHooks.CountFailureSpec | src/hooks/pipeline.js:25-38 | The day's counter becomes one more than stored. From 10 on, the proposal is made and the whole record deleted. Below 10, nothing is proposed and only that day's entry changes. |
| PipelineHooks.NotYourDayDelegates | src/hooks/pipeline.js:10-29 | A failed pipeline of an actor without the achievement goes to the counter for its `created_at` day. |
| PipelineHooks.BumpSetsDay | src/hooks/pipeline.js:26-28 | Writing a day's count sets that day and leaves every other day alone. |
| PipelineHooks.NotYourDayFrame | src/hooks/pipeline.js:25-34 | The checker changes only the actor's 'Not your day' record, beyond resolving the actor. |
| PipelineHooks.NotYourDayCounts | src/hooks/pipeline.js:15-38 | A failed pipeline raises only its day's count, by one. Reaching 10 proposes the achievement and deletes the record. Below 10, nothing is proposed. |
| PipelineHooks.NotYourDayPreservesValid | src/hooks/pipeline.js:10-39 | The checker keeps the store's constraints. |
| PipelineHooks.UnseenActorStartsClean | src/hooks/pipeline.js:12-27 | An actor the store has never seen has no unlock and zero counts. |
| PipelineHooks.FirstFailure | src/hooks/pipeline.js:10-38 | An identified actor's first failure on a day proposes nothing and counts 1. Afterwards its fragment resolves to the same user. |
| PipelineHooks.FailureBelowThreshold | src/hooks/pipeline.js:25-38 | One failure below the threshold proposes nothing and adds one to that day. |
| PipelineHooks.FailureRun | src/hooks/pipeline.js:25-38 | A run of failures below the threshold adds its length to that day and leaves the unlocks alone. |
| PipelineHooks.FailureQuietAt | src/hooks/pipeline.js:31-38 | Each failure of such a run proposes nothing. |
| PipelineHooks.FailuresAccumulate | src/hooks/pipeline.js:25-38 | Failures below the threshold each propose nothing, and together they add their number to the day's count. |
| PipelineHooks.TenthFailureUnlocks | src/hooks/pipeline.js:31-35 | Nine failures of one actor on one UTC day propose nothing. The tenth proposes 'Not your day' for that actor. |
| Registry.HookByKind | src/hooks/index.js:17-43 | A module is returned only for its own kind string. |
| Registry.HookByKindInverse | src/hooks/index.js:17-43 | A module is chosen exactly when the kind is that module's string. |
| Registry.KindOfInjective | src/hooks/index.js:17-40 | The eight kinds are distinct. |
| Registry.UnknownKindHasNoHooks | src/hooks/index.js:42 | Any other value, string or not, gives null. |
| Registry.HookList | src/hooks/index.js:1-10 | Push runs First blood and then Night's watchman. Note runs You see my point? and then the Reviewer ranks. Pipeline runs Not your day. |
| Registry.HookListOwned | src/hooks/index.js:1-10 | Every checker on a list belongs to that list's module. |
| Hook.ParsedActorCredited | src/hooks/push.js:11-15 | A proposal for the resolved actor object credits the actor `parseUser` found. |
| Engine.Run | src/utils/hooks.js:14 | A modelled checker proposes at most one unlock, always for the body's actor. |
| Engine.ApplyUnlocks | src/utils/hooks.js:20-23 | Applying proposals only appends users and unlocks, at most one unlock each, and never touches metadata. `Engine.ApplyUnlocksStamps` proves that every added row carries the one timestamp and a proposed achievement. |
| Engine.ExecuteHooks | src/utils/hooks.js:8-26 | A valid store stays valid. With only modelled checkers, the result is the run on the body without the `_webhook_timestamp` stamp. `Engine.OpaqueSeesStamp` states that the stamp is the given timestamp. |
| Engine.RunHooksAppend | src/utils/hooks.js:13-24 | Running two lists in turn is running their concatenation. An error in the first list skips the second. |
| Engine.RunHooksSingle | src/utils/hooks.js:13-24 | One checker's throw is the run's error. Otherwise its proposals are applied with the run's timestamp. |
| Engine.RunPreservesValid | src/utils/hooks.js:14 | A checker call on a valid store leaves it valid, given that the unmodelled checkers do. |
| Engine.ApplyUnlocksStamps | src/utils/hooks.js:20-23 | Every unlock row the proposals add carries the execution timestamp and names an achievement some proposal asked for. |
| Engine.ApplyUnlocksPreservesValid | src/utils/hooks.js:20-23 | Applying proposals to a valid store leaves it valid. |
| Engine.RunHooks | src/utils/hooks.js:13-24 | A run, aborted or not, leaves a valid store valid. It aborts only on an error of a listed checker that can throw. |
| Engine.ProposalsUnlocked | src/utils/hooks.js:20-23 | After the proposals are applied, each identified actor has its proposed achievement. |
| Engine.UnlockSurvivesLaterUnlocks | src/utils/hooks.js:20-23 | An applied unlock is still reported after the later ones. |
| Engine.StampInvisible | src/utils/hooks.js:10 | No modelled checker reads `_webhook_timestamp`. |
| Engine.NightsWatchmanReads | src/hooks/push.js:24-40 | The checker reads only the actor and `commits`. |
| Engine.YouSeeMyPointReads | src/hooks/comment.js:10-18 | The checker reads only the actor and `merge_request`. |
| Engine.ReviewerRankReads | src/hooks/comment.js:26-61 | The checker reads only the actor, `merge_request` and `object_attributes`. |
| Engine.NotYourDayReads | src/hooks/pipeline.js:10-39 | The checker reads only the actor and `object_attributes`. |
| Engine.RunHooksStampInvisible | src/utils/hooks.js:8-26 | Bodies that differ only in the stamp run identically. |
| Engine.OpaqueSeesStamp | src/utils/hooks.js:8-24 | An unmodelled checker is called on the body with `_webhook_timestamp` set to the execution timestamp. Its throw is the run's error; otherwise its proposals are applied with that timestamp. |
| Engine.OldStampIgnored | src/utils/hooks.js:10 | A stamp already in the body is overwritten before any checker runs. |
| WebhookLog.Store | src/webhook-store.js:23-33 | Appends exactly one row: the md5 of the stringified body, the ingest time and the stringified body. Earlier rows are unchanged. |
| WebhookLog.GetWebhooks | src/webhook-store.js:35-42 | Fails with a SyntaxError exactly when some body does not parse. Otherwise every row is kept in order, with its body parsed. |
| WebhookLog.Latest | src/webhook-store.js:46 | The greatest ingest time in the log. |
| WebhookLog.GetWebhookInfo | src/webhook-store.js:44-52 | Throws exactly on an empty table. Otherwise it counts the rows, and `latest` is the largest ingest time of any row. |
| WebhookLog.StoreThenLoad | src/webhook-store.js:23-42 | With a round-tripping codec, a stored body loads back as itself, after everything stored before it. |
| WebhookLog.StoredLogLoads | src/webhook-store.js:23-42 | A log written only by `store` loads in full. |
| WebhookLog.StoreTwiceKeepsBoth | src/webhook-store.js:30-31 | The same body stored twice is two rows with the same hash. |
| WebhookLog.LatestAppend | src/webhook-store.js:46 | A new row moves `latest` to its time if that is later. |
| WebhookLog.InfoAfterStore | src/webhook-store.js:44-52 | After a store there is one more row, and `latest` is the larger of the old latest and the new time. |
| Server.HandleWebhook | src/index.js:34-64 | Checks in order: missing event header gives 400, bad token gives 403, store failure gives 500. Then the body is logged before its kind is read. A `null` body gets no reply. Users change only for a logged object body. |
| Server.WebhookStatus | src/index.js:51-63 | A request with a known kind runs that module's hooks and is answered 200 exactly when none threw. |
| Server.UnknownKindStoredAnyway | src/index.js:43-54 | An unknown kind is logged and answered 400, with users unchanged. |
| Server.ReplayOne | src/index.js:129-138 | Fails exactly on a `null` body. A kind with no hooks leaves the store as it was. A known kind runs `executeHooks` with the row's ingest time as the timestamp and keeps its store, also when a checker threw. |
| Server.ReplayAll | src/index.js:129-139 | The replay fails exactly when some loaded body is `null`. |
| Server.CheckStoredWebhooks | src/index.js:119-140 | A log that fails to load is skipped. |
| Server.Startup | src/index.js:142-176 | Starts from an empty store when the unlink removed the file, otherwise from the store the failed unlink left. If the log does not load, that start is the result. `Server.StartupReplays` states the replay of a loaded log, and `Server.ReplayReproducesLiveState` proves that the replay from empty gives back the live state. |
| Server.StartupReplays | src/index.js:119-170 | A log that loads is replayed, in order, on the store the unlink left, or on an empty one when the file was removed. |
| Server.FailedUnlinkKeepsStore | src/index.js:155-168 | With an empty log, a store the failed unlink left behind is the startup result as it was. |
| Server.ReplayAllSnoc | src/index.js:129-139 | Replaying a longer list is replaying its prefix, then the last entry. |
| Server.ServeStep | src/index.js:119-140 | One delivery keeps "replaying the log gives the live user store". |
| Server.ReplayReproducesLiveState | src/index.js:153-170 | After any deliveries to a fresh server, startup replay rebuilds exactly the live user store, given a round-tripping codec and non-null bodies. Uuids are minted deterministically here; the program's random uuids make this hold only up to a renaming of uuids. |
| Server.StripForgetsOnlyEmail | src/index.js:94-95 | Two users look the same after stripping exactly when they differ at most in the email. |
| Server.UserRoute | src/index.js:82-100 | A failing query gives 500. Otherwise 404 is sent exactly when no row has the uuid, and a found user is a stored row without its email. |
| Server.UserRouteAchievements | src/index.js:82-100 | A found user carries exactly its own unlocks. |
| Server.UsersRoute | src/index.js:67-79 | A failing query gives 500. A list has one entry per row. |
| Server.ListMatchesSingle | src/index.js:67-100 | In a valid store the list answers, in table order, and each entry is what `/users/:uuid` answers for it. |
| LegacyState.FindUser | src/utils/state.js:9 | The first record whose own `username` key holds the probe, or none. |
| LegacyState.CreateUserIfNotExists | src/utils/state.js:8-14 | Appends `{...user, achievements: []}` exactly when `find` sees no such username. |
| LegacyState.UserHasAchievement | src/utils/state.js:24-28 | Creates the user if needed. True exactly when the found record has an unlock with that name. |
| LegacyState.UnlockAchievement | src/utils/state.js:37-42 | Creates the user if needed, then appends an unlock stamped `now` to the found record only. Nothing is appended when no record is found. |
| LegacyState.CreateIdempotent | src/utils/state.js:8-14 | A user object with a `username` key is found once created, so a second creation changes nothing. |
| LegacyState.NoUsernameNeverFound | src/utils/state.js:8-42 | Without a `username` key every call appends another record, no unlock is ever reported, and unlocking stores nothing. |
| LegacyState.UnlockThenHas | src/utils/state.js:24-42 | After an unlock the same user object reports the achievement. |
| LegacyState.UnlockTwiceKeepsBoth | src/utils/state.js:37-42 | Unlocking twice keeps both entries with their own timestamps. |

## Left out

- JavaScript numbers are modelled as integers. Floating point, `NaN` arithmetic and fractional timestamps are not modelled.
- Parsing of date strings is the `parseDate` parameter. The model does not include the ISO and RFC grammars of `Date.parse`.
- Binding an array or object to an SQL parameter is modelled as NULL. SQLite type affinity and the rowid that `REPLACE` reassigns are not modelled.
- Stored metadata values that are not numbers, and a `pipelines` value that is not an object, are read as absent. The checkers only ever write numbers and objects there.
- The user store's `getMetadata`, `setMetadata` and `clearMetadata` are not defined in src/user-store.js. They are modelled from their call sites: keyed by the resolved user and the achievement name, each resolving the user first.
- `JSON.stringify`, `JSON.parse` and md5 are abstract. The JSON codec is a parameter with a round-trip premise.
- `uuid()` is modelled as a serial number that restarts at 0 with an empty store. The program calls the random `uuid.v4` (src/user-store.js:1, :44).
- UserStore.LookupUser: the model assumes that the `OR` query of src/user-store.js:24 returns matching rows in insertion order, and takes the first. SQLite promises no order without `ORDER BY`. A planner that looks up each term through its own index could return an `id` match before an older `username` match.
- UserStore.GetUsers: the model assumes that `SELECT uuid FROM users` (src/user-store.js:92) lists users in creation order. SQLite may scan the uuid index and list them in uuid text order instead.
- The tag, issue, merge-request, wiki and job hook modules are not part of this model. Their checkers are the `Opaque` entries of a hook list, and their behaviour is `Env.opaqueHook`. Only `Engine.OpaqueKeepsValid` is assumed of them.
- Express routing and CORS, the body-parser middleware, `migrate.js`, `src/utils/db.js`, `src/utils/io.js` and loading of `src/state.js` are not modelled. Neither are `process.exit` on a store that fails to load, the `SIGINT` handler, or the `/achievements` and `/info` route wiring.
- Requests are handled one at a time. The interleaving of concurrent `async` handlers is not modelled.
- A checker that mutates the body it is given is not modelled. The modelled checkers never do.
- The legacy state's lodash `find({username})` partial deep match is modelled as plain equality of the stored `username` value.
- Server.ReplayReproducesLiveState: the two `Date.now()` readings of one request (ingest and hook time) are taken as equal. With different readings and only modelled checkers, only the timestamps stored in new unlocks would differ. The unmodelled checkers see the hook time in `_webhook_timestamp`, so with them the replay may differ by whole unlocks or metadata.
- Server.ReplayReproducesLiveState: exact equality relies on deterministic uuids. Replay in the model mints the same serial numbers that the live handlers minted. The program mints fresh random uuids on every replay. There the rebuilt users, unlocks and metadata equal the live ones only up to a one-to-one renaming of uuids, so a user's `/users/:uuid` address changes at every restart.
- Server.Startup: whether `unlinkSync` removed the user store file is the `kept` parameter and is not derived from the file system. The double counting a surviving store causes on replay is described above but not proved as a lemma, and `Server.ReplayReproducesLiveState` covers only the case where the file was removed.
- Engine.ApplyUnlocksStamps: the timestamp fact is stated for the unlock loop of one checker's proposals. It is not carried through `Engine.RunHooks` as a lemma, because that would also need the checkers' own unlock frames.
- Server.CheckStoredWebhooks: states only the load-failure case. The replay itself is stated by `Server.ReplayAll`, `Server.ReplayAllSnoc` and `Server.ReplayReproducesLiveState`.
- Server.UsersRoute: states the error case and the length of the list. Its contents are stated by `Server.ListMatchesSingle` for valid stores.

=== FILE: body_parser.dfy ===
/**
 * `parseUser`: the identity fragment of the actor of a webhook body. GitLab
 * sends either a nested `user` object or flat `user_*` fields.
 */
module BodyParser {
  import opened Js

  /**
   * An identity fragment as the JavaScript object it is: the keys present
   * and their values (`undefined` when the body lacked the field).
   */
  type Fragment = map<string, JsVal>

  /** `fragment[key]`: `undefined` when the key is absent. */
  function Field(f: Fragment, key: string): JsVal
  {
    if key in f then f[key] else Undefined
  }

  /** The only body fields `parseUser` reads. */
  const Inputs: set<string> := {"user", "user_id", "user_name", "user_username", "user_email", "user_avatar"}

  function ParseUser(body: Obj): (f: Fragment)
    // the nested shape is chosen exactly when `body.user` is truthy
    ensures Truthy(Prop(body, "user")) ==>
      && f.Keys == {"id", "name", "username", "avatar"}
      && f["id"] == Val(JNull)
      && f["name"] == Member(Prop(body, "user"), "name")
      && f["username"] == Member(Prop(body, "user"), "username")
      && f["avatar"] == Member(Prop(body, "user"), "avatar_url")
    ensures !Truthy(Prop(body, "user")) ==>
      && f.Keys == {"id", "name", "username", "email", "avatar"}
      && f["id"] == Prop(body, "user_id")
      && f["name"] == Prop(body, "user_name")
      && f["username"] == Prop(body, "user_username")
      && f["email"] == Prop(body, "user_email")
      && f["avatar"] == Prop(body, "user_avatar")
  {
    var user := Prop(body, "user");
    if Truthy(user) then
      map["id" := Val(JNull),
          "name" := Member(user, "name"),
          "username" := Member(user, "username"),
          "avatar" := Member(user, "avatar_url")]
    else
      map["id" := Prop(body, "user_id"),
          "name" := Prop(body, "user_name"),
          "username" := Prop(body, "user_username"),
          "email" := Prop(body, "user_email"),
          "avatar" := Prop(body, "user_avatar")]
  }

  /** The fragment never carries a uuid, and the nested shape never carries an email key. */
  lemma ParseUserKeys(body: Obj)
    ensures "uuid" !in ParseUser(body)
    ensures Truthy(Prop(body, "user")) <==> "email" !in ParseUser(body)
  {
  }

  /**
   * The result depends on the body only through the six fields it reads:
   * any other field of the body, present or absent, makes no difference.
   */
  lemma ParseUserLocal(a: Obj, b: Obj)
    requires forall k :: k in Inputs ==> Prop(a, k) == Prop(b, k)
    ensures ParseUser(a) == ParseUser(b)
  {
    assert Prop(a, "user") == Prop(b, "user");
    assert Prop(a, "user_id") == Prop(b, "user_id");
    assert Prop(a, "user_name") == Prop(b, "user_name");
    assert Prop(a, "user_username") == Prop(b, "user_username");
    assert Prop(a, "user_email") == Prop(b, "user_email");
    assert Prop(a, "user_avatar") == Prop(b, "user_avatar");
  }

  /** A `null` user object selects the flat shape. */
  lemma NullUserIsFlat(body: Obj)
    requires Prop(body, "user") == Val(JNull)
    ensures ParseUser(body)["email"] == Prop(body, "user_email")
  {
  }

  /** The nested-shape example body: the display name is taken from `user.name`. */
  lemma ParseAdministrator()
    ensures
      var user := JObj(map["name" := JStr("Administrator"), "username" := JStr("root"),
                           "avatar_url" := JStr("http://www.gravatar.com/avatar/e64c7d89f26bd1972efa854d13d7dd61?s=40&d=identicon")]);
      var f := ParseUser(map["user" := user]);
      f["name"] == Val(JStr("Administrator")) && f["id"] == Val(JNull) && "email" !in f
  {
  }
}

=== FILE: comment.dfy ===
/** The comment (note) checkers: 'You see my point?' and the Reviewer ranks. */
module CommentHooks {
  import opened Wrappers
  import opened Js
  import opened BodyParser
  import opened UserStore
  import opened Hook

  const YouSeeMyPoint: string := "You see my point?"
  const Apprentice: string := "Apprentice Reviewer"
  const Adept: string := "Adept Reviewer"
  const Master: string := "Master Reviewer"
  const Grandmaster: string := "Grandmaster Reviewer"
  /** The metadata name the comment counter is kept under. */
  const RankKey: string := "Reviewer Rank"

  /**
   * 'You see my point?': proposed for any comment on a merge request. Without
   * a merge request the function falls off its end and returns `undefined`.
   */
  function CheckYouSeeMyPoint(s: Store, body: Obj): (r: Step)
    ensures var has := UserHasAchievement(s, ParseUser(body), YouSeeMyPoint);
      && r.store == has.store
      && (has.value ==> r.outcome == Returned(Proposals([])))
      && (!has.value && Truthy(Prop(body, "merge_request")) ==>
            r.outcome == Returned(Proposals([Proposal(has.user, YouSeeMyPoint)])))
      && (!has.value && !Truthy(Prop(body, "merge_request")) ==> r.outcome == Returned(NotArray))
    ensures forall p :: p in Proposed(r.outcome) ==> Credits(p, body)
  {
    var has := UserHasAchievement(s, ParseUser(body), YouSeeMyPoint);
    ParsedActorCredited(body, has.user, YouSeeMyPoint);
    if has.value then Step(has.store, Returned(Proposals([])))
    else if Truthy(Prop(body, "merge_request")) then
      Step(has.store, Returned(Proposals([Proposal(has.user, YouSeeMyPoint)])))
    else Step(has.store, Returned(NotArray))
  }

  /** The rank reached at a comment count: only the exact checkpoints count. */
  function Tier(count: int): Option<string>
  {
    if count == 200 then Some(Grandmaster)
    else if count == 150 then Some(Master)
    else if count == 75 then Some(Adept)
    else if count == 25 then Some(Apprentice)
    else None
  }

  /** The stored comment count of a user. */
  function Comments(s: Store, user: nat): int
  {
    Counter(Prop(MetadataOf(s, user, RankKey), "comments"))
  }

  /** A comment that counts: on a merge request, by someone other than its author. */
  predicate Reviewing(body: Obj)
  {
    var mr := Prop(body, "merge_request");
    var oa := Prop(body, "object_attributes");
    Truthy(mr) && !Nullish(oa) && !StrictEquals(Member(oa, "author_id"), Member(mr, "author_id"))
  }

  /**
   * The Reviewer ranks. Comments on merge requests by anyone but the merge
   * request's author bump the counter; the exact counts 25, 75, 150 and 200
   * propose a rank, and 200 also deletes the counter.
   */
  function CheckReviewerRank(s: Store, body: Obj): (r: Step)
    ensures var has := UserHasAchievement(s, ParseUser(body), Grandmaster);
      && (has.value ==> r == Step(has.store, Returned(Proposals([]))))
      && (!has.value ==> r == ReviewComment(has.store, has.user, body))
    ensures |Proposed(r.outcome)| <= 1
    ensures forall p :: p in Proposed(r.outcome) ==> Credits(p, body)
  {
    var has := UserHasAchievement(s, ParseUser(body), Grandmaster);
    if has.value then Step(has.store, Returned(Proposals([])))
    else
      var r := ReviewComment(has.store, has.user, body);
      assert forall p :: p in Proposed(r.outcome) ==> Credits(p, body) by {
        forall p | p in Proposed(r.outcome) ensures Credits(p, body) {
          ParsedActorCredited(body, p.user, p.achievement);
        }
      }
      r
  }

  /**
   * The Reviewer-rank checker past its has-check, for the resolved actor
   * `user`: only a merge request counts, reading the comment's author throws
   * when there are no object attributes, and the merge request's own author
   * is not counted.
   */
  function ReviewComment(s: Store, user: Fragment, body: Obj): (r: Step)
    requires user - {"uuid"} == ParseUser(body) - {"uuid"}
    ensures !Truthy(Prop(body, "merge_request")) ==> r == Step(s, Returned(Proposals([])))
    ensures Truthy(Prop(body, "merge_request")) ==>
      (r.outcome.Threw? <==> Nullish(Prop(body, "object_attributes")))
    ensures !Nullish(Prop(body, "object_attributes")) && !Reviewing(body) ==>
      r == Step(s, Returned(Proposals([])))
    ensures r.outcome.Threw? ==> r.store == s
    ensures |Proposed(r.outcome)| <= 1
    ensures forall p :: p in Proposed(r.outcome) ==> p.user - {"uuid"} == ParseUser(body) - {"uuid"}
  {
    var mr := Prop(body, "merge_request");
    if !Truthy(mr) then Step(s, Returned(Proposals([])))
    else
      match Get(Prop(body, "object_attributes"), "author_id")
      case Failure(e) => Step(s, Threw(e))
      case Success(commentAuthor) =>
        if StrictEquals(commentAuthor, Member(mr, "author_id")) then Step(s, Returned(Proposals([])))
        else CountComment(s, user)
  }

  /** The counting half of the Reviewer-rank checker, for an actor that has been resolved. */
  function CountComment(s: Store, user: Fragment): (r: Step)
    ensures forall p :: p in Proposed(r.outcome) ==> p.user - {"uuid"} == user - {"uuid"}
    ensures |Proposed(r.outcome)| <= 1
  {
    RankStep(BumpComments(s, user))
  }

  /** Proposes the rank of the new count; at 200 the counter is deleted first. */
  function RankStep(bumped: Access<int>): (r: Step)
    ensures forall p :: p in Proposed(r.outcome) ==> p.user - {"uuid"} == bumped.user - {"uuid"}
    ensures |Proposed(r.outcome)| <= 1
  {
    if bumped.value == 200 then
      var cleared := ClearMetadata(bumped.store, bumped.user, RankKey);
      Step(cleared.store, Returned(Proposals([Proposal(cleared.user, Grandmaster)])))
    else
      match Tier(bumped.value)
      case Some(rank) => Step(bumped.store, Returned(Proposals([Proposal(bumped.user, rank)])))
      case None => Step(bumped.store, Returned(NotArray))
  }

  /** `metadata.comments = (metadata.comments || 0) + 1`, stored back; the result is the new count. */
  function BumpComments(s: Store, user: Fragment): (r: Access<int>)
    ensures r.user - {"uuid"} == user - {"uuid"}
  {
    var meta := GetMetadata(s, user, RankKey);
    var count := Counter(Prop(meta.value, "comments")) + 1;
    var stored := SetMetadata(meta.store, meta.user, RankKey, meta.value["comments" := JNum(count)]);
    Access(stored.store, stored.user, count)
  }

  /** What the Reviewer-rank checker returns once the count is known. */
  function TierResult(user: Fragment, count: int): HookResult
  {
    match Tier(count)
    case Some(rank) => Proposals([Proposal(user, rank)])
    case None => NotArray
  }

  /** For a resolved actor, counting sets the counter to one more, or deletes it at 200. */
  lemma CountCommentSpec(s: Store, f: Fragment, u: nat)
    requires Resolved(s, f, u)
    ensures var r := CountComment(s, f);
      var count := Comments(s, u) + 1;
      && r.outcome == Returned(TierResult(f, count))
      && r.store.users == s.users && r.store.minted == s.minted && r.store.unlocks == s.unlocks
      && (count == 200 ==> r.store.metadata == s.metadata - {(u, RankKey)})
      && (count != 200 ==>
            r.store.metadata == s.metadata[(u, RankKey) := MetadataOf(s, u, RankKey)["comments" := JNum(count)]])
      && (count == 200 <==> (u, RankKey) !in r.store.metadata)
      && (count != 200 ==> Comments(r.store, u) == count)
  {
    var meta := GetMetadata(s, f, RankKey);
    var count := Counter(Prop(meta.value, "comments")) + 1;
    var stored := SetMetadata(meta.store, meta.user, RankKey, meta.value["comments" := JNum(count)]);
    ResolveReadsUsersOnly(s, stored.store, f);
  }

  /** A counting comment by an actor without the top rank goes straight to the counter. */
  lemma ReviewerRankDelegates(s: Store, body: Obj)
    requires Reviewing(body)
    requires !UserHasAchievement(s, ParseUser(body), Grandmaster).value
    ensures var has := UserHasAchievement(s, ParseUser(body), Grandmaster);
      CheckReviewerRank(s, body) == CountComment(has.store, has.user)
  {
  }

  /**
   * A counting comment raises the actor's counter by exactly one (from 0 when
   * absent), proposes the rank of the new count if it is a checkpoint, and
   * deletes the counter exactly at 200. Other metadata, the unlocks and the
   * users are left alone.
   */
  lemma ReviewerRankCounts(s: Store, body: Obj)
    requires Valid(s)
    requires Reviewing(body)
    requires !Unlocked(s.unlocks, CreateOrUpdateUser(s, ParseUser(body)).value, Grandmaster)
    ensures var a := CreateOrUpdateUser(s, ParseUser(body));
      var r := CheckReviewerRank(s, body);
      var count := Comments(s, a.value) + 1;
      && r.outcome == Returned(TierResult(a.user, count))
      && (count == 200 <==> (a.value, RankKey) !in r.store.metadata)
      && (count != 200 ==> Comments(r.store, a.value) == count)
  {
    var f := ParseUser(body);
    var a := CreateOrUpdateUser(s, f);
    CreateOrUpdateIdempotent(s, f);
    ReviewerRankDelegates(s, body);
    CountCommentSpec(a.store, a.user, a.value);
  }

  /** The Reviewer-rank checker writes only the actor's own rank counter and never an unlock. */
  lemma ReviewerRankFrame(s: Store, body: Obj)
    requires Valid(s)
    ensures var a := CreateOrUpdateUser(s, ParseUser(body));
      var r := CheckReviewerRank(s, body);
      OnlyMetadataOf(a.store, r.store, a.value, RankKey)
  {
    var f := ParseUser(body);
    var a := CreateOrUpdateUser(s, f);
    if Reviewing(body) && !Unlocked(s.unlocks, a.value, Grandmaster) {
      assert OnlyMetadataOf(a.store, CheckReviewerRank(s, body).store, a.value, RankKey) by {
        CreateOrUpdateIdempotent(s, f);
        ReviewerRankDelegates(s, body);
        CountCommentSpec(a.store, a.user, a.value);
      }
    }
  }

  /** The Reviewer-rank checker keeps the store's constraints. */
  lemma ReviewerRankPreservesValid(s: Store, body: Obj)
    requires Valid(s)
    ensures Valid(CheckReviewerRank(s, body).store)
  {
    var f := ParseUser(body);
    var a := CreateOrUpdateUser(s, f);
    var r := CheckReviewerRank(s, body);
    CreateOrUpdatePreservesValid(s, f);
    ResolvedIsMinted(s, f);
    if Reviewing(body) && !Unlocked(s.unlocks, a.value, Grandmaster) {
      CreateOrUpdateIdempotent(s, f);
      ReviewerRankDelegates(s, body);
      CountCommentSpec(a.store, a.user, a.value);
      MetadataChangeKeepsValid(a.store, r.store);
    }
  }
}

=== FILE: decimal.dfy ===
/**
 * Decimal rendering of integers, as `Number.prototype.toString()` and
 * `String.prototype.padStart(2, '0')` produce it for integral values,
 * together with the injectivity facts the date buckets and uuids rely on.
 */
module Decimal {

  predicate IsDigit(c: char)
  {
    '0' <= c <= '9'
  }

  function DigitChar(d: nat): (c: char)
    requires d < 10
    ensures IsDigit(c)
  {
    ('0' as int + d) as char
  }

  predicate AllDigits(s: string)
  {
    forall i :: 0 <= i < |s| ==> IsDigit(s[i])
  }

  /** The number a string of decimal digits denotes, most significant first. */
  function ValueOf(s: string): nat
    requires AllDigits(s)
    decreases |s|
  {
    if s == [] then 0 else ValueOf(s[..|s| - 1]) * 10 + (s[|s| - 1] as int - '0' as int)
  }

  /** Decimal digits of `n`, most significant first, without leading zeros. */
  function NatToString(n: nat): (s: string)
    ensures |s| >= 1
    ensures AllDigits(s) && ValueOf(s) == n
    ensures n >= 10 ==> |s| >= 2 && s[0] != '0'
    ensures n < 10 ==> |s| == 1
  {
    if n < 10 then
      assert [DigitChar(n)][..0] == [];
      [DigitChar(n)]
    else
      var high := NatToString(n / 10);
      var s := high + [DigitChar(n % 10)];
      assert s[..|s| - 1] == high;
      s
  }

  /** `i.toString()` for an integer `i`: a minus sign, then the digits of `|i|`. */
  function IntToString(i: int): (s: string)
    ensures |s| >= 1
    ensures s[0] == '-' || IsDigit(s[0])
    ensures forall k :: 0 < k < |s| ==> IsDigit(s[k])
    ensures i < 0 <==> s[0] == '-'
    ensures i < 0 ==> ValueOf(s[1..]) == -i
    ensures i >= 0 ==> ValueOf(s) == i
  {
    if i < 0 then
      var s := "-" + NatToString(-i);
      assert s[1..] == NatToString(-i);
      s
    else NatToString(i)
  }

  /** `n.toString().padStart(2, '0')`. */
  function Pad2(n: nat): (s: string)
    requires n < 100
    ensures |s| == 2
    ensures AllDigits(s) && ValueOf(s) == n
  {
    if n < 10 then
      var s := "0" + NatToString(n);
      assert s[..1] == "0" && s[..1][..0] == [];
      s
    else NatToString(n)
  }

  /** Different naturals have different decimal renderings. */
  lemma {:induction false} NatToStringInjective(a: nat, b: nat)
    requires NatToString(a) == NatToString(b)
    ensures a == b
  {
    var sa, sb := NatToString(a), NatToString(b);
    if a < 10 && b < 10 {
      assert sa[0] == DigitChar(a) && sb[0] == DigitChar(b);
    } else if a < 10 || b < 10 {
      // the lengths differ
    } else {
      assert sa[|sa| - 1] == DigitChar(a % 10);
      assert sb[|sb| - 1] == DigitChar(b % 10);
      assert NatToString(a / 10) == sa[..|sa| - 1] == sb[..|sb| - 1] == NatToString(b / 10);
      NatToStringInjective(a / 10, b / 10);
    }
  }

  /** Different integers have different renderings: the sign tells negatives apart. */
  lemma IntToStringInjective(a: int, b: int)
    requires IntToString(a) == IntToString(b)
    ensures a == b
  {
    var sa, sb := IntToString(a), IntToString(b);
    if a < 0 && b < 0 {
      assert NatToString(-a) == sa[1..] == sb[1..] == NatToString(-b);
      NatToStringInjective(-a, -b);
    } else if a < 0 || b < 0 {
      // only one of them starts with a minus sign
    } else {
      NatToStringInjective(a, b);
    }
  }

  /** Two-digit padding tells the numbers 0..99 apart. */
  lemma Pad2Injective(a: nat, b: nat)
    requires a < 100 && b < 100
    requires Pad2(a) == Pad2(b)
    ensures a == b
  {
    var sa, sb := Pad2(a), Pad2(b);
    if a < 10 && b < 10 {
      assert NatToString(a) == sa[1..] == sb[1..] == NatToString(b);
      NatToStringInjective(a, b);
    } else if a < 10 || b < 10 {
      // only one of them starts with a padding zero
    } else {
      NatToStringInjective(a, b);
    }
  }
}

=== FILE: engine.dfy ===
/**
 * `executeHooks`: stamps the body with the execution timestamp, then runs the
 * checkers one after another, applying each checker's proposals before the
 * next one runs.
 */
module Engine {
  import opened Wrappers
  import opened Js
  import opened BodyParser
  import opened UserStore
  import opened Hook
  import opened Registry
  import PushHooks
  import CommentHooks
  import PipelineHooks

  /**
   * What the engine takes from outside: how date strings parse, and the
   * checker lists of the hook modules that are not modelled here.
   */
  datatype Env = Env(
    parseDate: string -> Option<int>,
    opaqueCount: HookModule -> nat,
    opaqueHook: (HookModule, nat, Store, Obj) -> Step)

  /** The body field `executeHooks` writes before any checker runs. */
  const StampKey: string := "_webhook_timestamp"

  /** How a run of hooks ended: the store it left, and the error that aborted it, if any. */
  datatype Execution = Execution(store: Store, error: Option<Error>)

  /** One checker call. */
  function Run(c: Checker, s: Store, body: Obj, env: Env): (r: Step)
    ensures !c.Opaque? ==> forall p :: p in Proposed(r.outcome) ==> Credits(p, body)
    ensures !c.Opaque? ==> |Proposed(r.outcome)| <= 1
  {
    match c
    case FirstBlood => PushHooks.CheckFirstBlood(s, body)
    case NightsWatchman => PushHooks.CheckNightsWatchman(s, body, env.parseDate)
    case YouSeeMyPoint => CommentHooks.CheckYouSeeMyPoint(s, body)
    case ReviewerRank => CommentHooks.CheckReviewerRank(s, body)
    case NotYourDay => PipelineHooks.CheckNotYourDay(s, body, env.parseDate)
    case Opaque(m, i) => env.opaqueHook(m, i, s, body)
  }

  /** The inner loop: `unlockAchievement` for each proposal in order, all with the same timestamp. */
  function ApplyUnlocks(s: Store, proposals: seq<Proposal>, timestamp: int): (r: Store)
    ensures s.users <= r.users && s.unlocks <= r.unlocks && r.metadata == s.metadata
    ensures |r.unlocks| <= |s.unlocks| + |proposals|
    decreases |proposals|
  {
    if proposals == [] then s
    else
      var p := proposals[0];
      ApplyUnlocks(UnlockAchievement(s, p.user, p.achievement, timestamp).store, proposals[1..], timestamp)
  }

  /** A checker that returns, rather than throws, on every store and body. */
  ghost predicate NeverThrows(c: Checker, env: Env)
  {
    forall s, body :: Run(c, s, body, env).outcome.Returned?
  }

  /**
   * `executeHooks(userStore, body, hooks, timestamp)`. The store stays valid,
   * and with only modelled checkers the stamp makes no difference: the run is
   * the one on the body without a stamp. The unmodelled checkers do see the
   * stamp (`OpaqueSeesStamp`).
   */
  function ExecuteHooks(s: Store, body: Obj, hooks: seq<Checker>, timestamp: int, env: Env): (r: Execution)
    ensures Valid(s) && OpaqueKeepsValid(env) ==> Valid(r.store)
    ensures (forall i :: 0 <= i < |hooks| ==> !hooks[i].Opaque?) ==>
      r == RunHooks(s, body - {StampKey}, hooks, timestamp, env)
  {
    var stamped := body[StampKey := JNum(timestamp)];
    StampedLikeUnstamped(s, body, hooks, timestamp, env);
    RunHooks(s, stamped, hooks, timestamp, env)
  }

  lemma StampedLikeUnstamped(s: Store, body: Obj, hooks: seq<Checker>, timestamp: int, env: Env)
    ensures (forall i :: 0 <= i < |hooks| ==> !hooks[i].Opaque?) ==>
      RunHooks(s, body[StampKey := JNum(timestamp)], hooks, timestamp, env) == RunHooks(s, body - {StampKey}, hooks, timestamp, env)
  {
    if forall i :: 0 <= i < |hooks| ==> !hooks[i].Opaque? {
      RunHooksStampInvisible(s, body[StampKey := JNum(timestamp)], body - {StampKey}, hooks, timestamp, env);
    }
  }

  /**
   * The outer loop over an already stamped body. A thrown error leaves the
   * loop at once: the proposals of earlier checkers stay applied, later
   * checkers do not run. A non-array result is skipped. Aborted or not, a
   * run leaves a valid store valid, and it aborts only on a checker's error.
   */
  function RunHooks(s: Store, body: Obj, hooks: seq<Checker>, timestamp: int, env: Env): (r: Execution)
    ensures Valid(s) && OpaqueKeepsValid(env) ==> Valid(r.store)
    ensures r.error.Some? ==> exists i :: 0 <= i < |hooks| && !NeverThrows(hooks[i], env)
    decreases |hooks|
  {
    if hooks == [] then Execution(s, None)
    else
      var step := Run(hooks[0], s, body, env);
      RunPreservesValid(hooks[0], s, body, env);
      assert forall i :: 1 <= i < |hooks| ==> hooks[1..][i - 1] == hooks[i];
      match step.outcome
      case Threw(e) => Execution(step.store, Some(e))
      case Returned(NotArray) => RunHooks(step.store, body, hooks[1..], timestamp, env)
      case Returned(Proposals(ps)) =>
        ApplyUnlocksPreservesValid(step.store, ps, timestamp);
        RunHooks(ApplyUnlocks(step.store, ps, timestamp), body, hooks[1..], timestamp, env)
  }

  /**
   * Running two lists one after the other is running their concatenation:
   * the second list starts from the store the first left, unless the first
   * aborted, in which case the second never runs.
   */
  lemma {:induction false} RunHooksAppend(s: Store, body: Obj, first: seq<Checker>, second: seq<Checker>,
                                          timestamp: int, env: Env)
    ensures var e := RunHooks(s, body, first, timestamp, env);
      RunHooks(s, body, first + second, timestamp, env) ==
        (if e.error.Some? then e else RunHooks(e.store, body, second, timestamp, env))
    decreases |first|
  {
    if first == [] {
      assert first + second == second;
    } else {
      assert (first + second)[0] == first[0];
      assert (first + second)[1..] == first[1..] + second;
      var step := Run(first[0], s, body, env);
      match step.outcome
      case Threw(e) =>
      case Returned(NotArray) =>
        RunHooksAppend(step.store, body, first[1..], second, timestamp, env);
      case Returned(Proposals(ps)) =>
        RunHooksAppend(ApplyUnlocks(step.store, ps, timestamp), body, first[1..], second, timestamp, env);
    }
  }

  /** With no error, a run applies every proposal of every checker: one checker's step, then the rest. */
  lemma RunHooksSingle(s: Store, body: Obj, c: Checker, timestamp: int, env: Env)
    ensures var step := Run(c, s, body, env);
      var e := RunHooks(s, body, [c], timestamp, env);
      && (step.outcome.Threw? <==> e.error.Some?)
      && (step.outcome.Threw? ==> e == Execution(step.store, Some(step.outcome.error)))
      && (step.outcome.Returned? ==> e.store == ApplyUnlocks(step.store, Proposed(step.outcome), timestamp))
  {
    assert [c][1..] == [];
  }

  /** The unmodelled checkers keep the store's constraints. */
  ghost predicate OpaqueKeepsValid(env: Env)
  {
    forall m, i, s, body :: Valid(s) ==> Valid(env.opaqueHook(m, i, s, body).store)
  }

  /** A checker call on a valid store leaves it valid. */
  lemma RunPreservesValid(c: Checker, s: Store, body: Obj, env: Env)
    ensures Valid(s) && OpaqueKeepsValid(env) ==> Valid(Run(c, s, body, env).store)
  {
    if Valid(s) {
      match c
      case FirstBlood => MetadataPreservesValid(s, ParseUser(body), PushHooks.FirstBlood, map[]);
      case NightsWatchman => MetadataPreservesValid(s, ParseUser(body), PushHooks.NightsWatchman, map[]);
      case YouSeeMyPoint => MetadataPreservesValid(s, ParseUser(body), CommentHooks.YouSeeMyPoint, map[]);
      case ReviewerRank => CommentHooks.ReviewerRankPreservesValid(s, body);
      case NotYourDay => PipelineHooks.NotYourDayPreservesValid(s, body, env.parseDate);
      case Opaque(m, i) =>
    }
  }

  /** Applying proposals to a valid store leaves it valid. */
  lemma {:induction false} ApplyUnlocksPreservesValid(s: Store, proposals: seq<Proposal>, timestamp: int)
    ensures Valid(s) ==> Valid(ApplyUnlocks(s, proposals, timestamp))
    decreases |proposals|
  {
    if Valid(s) && proposals != [] {
      var p := proposals[0];
      UnlockPreservesValid(s, p.user, p.achievement, timestamp);
      ApplyUnlocksPreservesValid(UnlockAchievement(s, p.user, p.achievement, timestamp).store, proposals[1..], timestamp);
    }
  }

  /**
   * Every unlock row the proposals add carries the one execution timestamp
   * and names an achievement some proposal asked for.
   */
  lemma {:induction false} ApplyUnlocksStamps(s: Store, proposals: seq<Proposal>, timestamp: int)
    ensures var r := ApplyUnlocks(s, proposals, timestamp);
      forall k :: |s.unlocks| <= k < |r.unlocks| ==>
        && r.unlocks[k].timestamp == timestamp
        && exists i :: 0 <= i < |proposals| && r.unlocks[k].name == proposals[i].achievement
    decreases |proposals|
  {
    if proposals != [] {
      var p := proposals[0];
      var t := UnlockAchievement(s, p.user, p.achievement, timestamp).store;
      var rest := proposals[1..];
      ApplyUnlocksStamps(t, rest, timestamp);
      var r := ApplyUnlocks(s, proposals, timestamp);
      assert r == ApplyUnlocks(t, rest, timestamp);
      forall k | |s.unlocks| <= k < |r.unlocks|
        ensures r.unlocks[k].timestamp == timestamp
        ensures exists i :: 0 <= i < |proposals| && r.unlocks[k].name == proposals[i].achievement
      {
        if k < |t.unlocks| {
          assert r.unlocks[k] == t.unlocks[k];
          assert r.unlocks[k].name == proposals[0].achievement;
        } else {
          var i :| 0 <= i < |rest| && r.unlocks[k].name == rest[i].achievement;
          assert rest[i] == proposals[i + 1];
        }
      }
    }
  }

  /**
   * After the proposals are applied, each proposed achievement is reported as
   * unlocked for its proposal's actor (one with an id, username or email),
   * whatever the proposals after it did.
   */
  lemma {:induction false} ProposalsUnlocked(s: Store, proposals: seq<Proposal>, timestamp: int)
    requires forall i :: 0 <= i < |proposals| ==> Identified(proposals[i].user)
    ensures var r := ApplyUnlocks(s, proposals, timestamp);
      forall i :: 0 <= i < |proposals| ==> UserHasAchievement(r, proposals[i].user, proposals[i].achievement).value
    decreases |proposals|
  {
    if proposals != [] {
      var p := proposals[0];
      var a := UnlockAchievement(s, p.user, p.achievement, timestamp);
      var rest := proposals[1..];
      var r := ApplyUnlocks(a.store, rest, timestamp);
      UnlockSurvivesLaterUnlocks(s, p, rest, timestamp);
      assert forall i :: 0 <= i < |rest| ==> Identified(rest[i].user) by {
        assert forall i :: 0 <= i < |rest| ==> rest[i] == proposals[i + 1];
      }
      ProposalsUnlocked(a.store, rest, timestamp);
      assert ApplyUnlocks(s, proposals, timestamp) == r;
      forall i | 0 <= i < |proposals|
        ensures UserHasAchievement(r, proposals[i].user, proposals[i].achievement).value
      {
        if i > 0 {
          assert proposals[i] == rest[i - 1];
        }
      }
    }
  }

  /** An unlock stays visible to its actor after any further unlocks. */
  lemma UnlockSurvivesLaterUnlocks(s: Store, p: Proposal, rest: seq<Proposal>, timestamp: int)
    requires Identified(p.user)
    ensures var a := UnlockAchievement(s, p.user, p.achievement, timestamp);
      UserHasAchievement(ApplyUnlocks(a.store, rest, timestamp), p.user, p.achievement).value
  {
    var a := UnlockAchievement(s, p.user, p.achievement, timestamp);
    UnlockThenHasFreshCopy(s, p.user, p.achievement, timestamp);
    ResolveAfterGrowth(a.store, ApplyUnlocks(a.store, rest, timestamp), p.user, p.achievement);
  }

  /** The modelled checkers never read the stamp field: bodies that differ only there behave alike. */
  lemma StampInvisible(c: Checker, s: Store, b1: Obj, b2: Obj, env: Env)
    requires !c.Opaque?
    requires forall k :: k != StampKey ==> Prop(b1, k) == Prop(b2, k)
    ensures Run(c, s, b1, env) == Run(c, s, b2, env)
  {
    ParseUserLocal(b1, b2);
    match c
    case FirstBlood =>
    case NightsWatchman =>
      NightsWatchmanReads(s, b1, b2, env);
    case YouSeeMyPoint =>
      YouSeeMyPointReads(s, b1, b2);
    case ReviewerRank =>
      ReviewerRankReads(s, b1, b2);
    case NotYourDay =>
      NotYourDayReads(s, b1, b2, env);
  }

  // Each modelled checker reads the body only through the parsed actor and the fields named here.

  lemma NightsWatchmanReads(s: Store, b1: Obj, b2: Obj, env: Env)
    requires ParseUser(b1) == ParseUser(b2) && Prop(b1, "commits") == Prop(b2, "commits")
    ensures Run(NightsWatchman, s, b1, env) == Run(NightsWatchman, s, b2, env)
  {
  }

  lemma YouSeeMyPointReads(s: Store, b1: Obj, b2: Obj)
    requires ParseUser(b1) == ParseUser(b2) && Prop(b1, "merge_request") == Prop(b2, "merge_request")
    ensures CommentHooks.CheckYouSeeMyPoint(s, b1) == CommentHooks.CheckYouSeeMyPoint(s, b2)
  {
  }

  lemma ReviewerRankReads(s: Store, b1: Obj, b2: Obj)
    requires ParseUser(b1) == ParseUser(b2)
    requires Prop(b1, "merge_request") == Prop(b2, "merge_request")
    requires Prop(b1, "object_attributes") == Prop(b2, "object_attributes")
    ensures CommentHooks.CheckReviewerRank(s, b1) == CommentHooks.CheckReviewerRank(s, b2)
  {
  }

  lemma NotYourDayReads(s: Store, b1: Obj, b2: Obj, env: Env)
    requires ParseUser(b1) == ParseUser(b2) && Prop(b1, "object_attributes") == Prop(b2, "object_attributes")
    ensures Run(NotYourDay, s, b1, env) == Run(NotYourDay, s, b2, env)
  {
  }

  /**
   * So a run of modelled checkers does the same on the live body and on its
   * stored copy, whatever timestamp each is stamped with; only the timestamps
   * written into new unlocks differ.
   */
  lemma {:induction false} RunHooksStampInvisible(s: Store, b1: Obj, b2: Obj, hooks: seq<Checker>, timestamp: int, env: Env)
    requires forall i :: 0 <= i < |hooks| ==> !hooks[i].Opaque?
    requires forall k :: k != StampKey ==> Prop(b1, k) == Prop(b2, k)
    ensures RunHooks(s, b1, hooks, timestamp, env) == RunHooks(s, b2, hooks, timestamp, env)
    decreases |hooks|
  {
    if hooks != [] {
      StampInvisible(hooks[0], s, b1, b2, env);
      var step := Run(hooks[0], s, b1, env);
      assert forall i :: 1 <= i < |hooks| ==> hooks[i] == hooks[1..][i - 1];
      match step.outcome
      case Threw(e) =>
      case Returned(NotArray) =>
        RunHooksStampInvisible(step.store, b1, b2, hooks[1..], timestamp, env);
      case Returned(Proposals(ps)) =>
        RunHooksStampInvisible(ApplyUnlocks(step.store, ps, timestamp), b1, b2, hooks[1..], timestamp, env);
    }
  }

  /** A stamp already in the body (from the sender, say) is overwritten before any checker sees it. */
  lemma OldStampIgnored(s: Store, body: Obj, hooks: seq<Checker>, timestamp: int, env: Env, old_stamp: Json)
    ensures ExecuteHooks(s, body[StampKey := old_stamp], hooks, timestamp, env) == ExecuteHooks(s, body, hooks, timestamp, env)
  {
    assert body[StampKey := old_stamp][StampKey := JNum(timestamp)] == body[StampKey := JNum(timestamp)];
  }

  /**
   * An unmodelled checker is called on the body with `_webhook_timestamp` set
   * to the execution timestamp: its throw is the run's error, and otherwise
   * its proposals are applied with that timestamp.
   */
  lemma OpaqueSeesStamp(s: Store, body: Obj, m: HookModule, i: nat, timestamp: int, env: Env)
    ensures var step := env.opaqueHook(m, i, s, body[StampKey := JNum(timestamp)]);
      var e := ExecuteHooks(s, body, [Opaque(m, i)], timestamp, env);
      && (step.outcome.Threw? ==> e == Execution(step.store, Some(step.outcome.error)))
      && (step.outcome.Returned? ==> e == Execution(ApplyUnlocks(step.store, Proposed(step.outcome), timestamp), None))
  {
    RunHooksSingle(s, body[StampKey := JNum(timestamp)], Opaque(m, i), timestamp, env);
  }
}

=== FILE: hook.dfy ===
/**
 * What a rule checker ("hook") is: a function of the user store and the
 * webhook body that may update the store (users are created on first sight,
 * metadata is kept) and then returns, or throws.
 */
module Hook {
  import opened Js
  import opened BodyParser
  import UserStore

  /** `{user, achievement}`: a candidate unlock, not yet applied. */
  datatype Proposal = Proposal(user: Fragment, achievement: string)

  /** A checker's return value: an array of proposals, or anything else (`undefined`). */
  datatype HookResult = NotArray | Proposals(items: seq<Proposal>)

  datatype Outcome = Returned(result: HookResult) | Threw(error: Error)

  /** The store as the checker left it, and how the checker ended. */
  datatype Step = Step(store: UserStore.Store, outcome: Outcome)

  /** The proposals a checker returned (none when it threw or returned a non-array). */
  function Proposed(o: Outcome): seq<Proposal>
  {
    if o.Returned? && o.result.Proposals? then o.result.items else []
  }

  /** The proposal credits the actor `parseUser` found in the body (its object may have gained a uuid). */
  predicate Credits(p: Proposal, body: Obj)
  {
    p.user - {"uuid"} == ParseUser(body)
  }

  lemma ParsedActorCredited(body: Obj, f: Fragment, achievement: string)
    requires f - {"uuid"} == ParseUser(body) - {"uuid"}
    ensures Credits(Proposal(f, achievement), body)
  {
    ParseUserKeys(body);
    assert ParseUser(body) - {"uuid"} == ParseUser(body);
  }

  /** `v || 0` for a stored counter; a stored value that is not a number is read as absent. */
  function Counter(v: JsVal): int
  {
    match v
    case Val(JNum(n)) => n
    case _ => 0
  }
}

=== FILE: js.dfy ===
/**
 * The JavaScript values the webhook bodies are made of, and the handful of
 * language operations the core applies to them: truthiness, property reads
 * (which throw on `undefined` and `null`) and strict equality.
 *
 * Numbers are integers here; floating point is not modelled.
 */
module Js {
  import opened Wrappers
  import Decimal

  /** A parsed JSON document. */
  datatype Json =
    | JNull
    | JBool(b: bool)
    | JNum(n: int)
    | JStr(s: string)
    | JArr(items: seq<Json>)
    | JObj(fields: map<string, Json>)

  /** A plain JSON object, such as a webhook body. */
  type Obj = map<string, Json>

  /** The result of reading a property: `undefined` or a JSON value. */
  datatype JsVal = Undefined | Val(json: Json)

  /** What a property read of `undefined`/`null` throws, or any other thrown error. */
  datatype Error = TypeError | SyntaxError | Raised(message: string)

  /** JavaScript truthiness (`if (v)`, `v || d`). */
  predicate Truthy(v: JsVal)
  {
    match v
    case Undefined => false
    case Val(j) =>
      match j
      case JNull => false
      case JBool(b) => b
      case JNum(n) => n != 0
      case JStr(s) => s != ""
      case JArr(_) => true
      case JObj(_) => true
  }

  /** `undefined` or `null`: the two values whose property reads throw. */
  predicate Nullish(v: JsVal)
  {
    v == Undefined || v == Val(JNull)
  }

  /** `o[key]` on a plain object: `undefined` when the key is absent. */
  function Prop(o: Obj, key: string): JsVal
  {
    if key in o then Val(o[key]) else Undefined
  }

  /**
   * `v[key]` on a value that is neither `undefined` nor `null`. Only objects
   * carry named properties; built-in properties of strings and arrays
   * (`length`, ...) are not modelled.
   */
  function Member(v: JsVal, key: string): JsVal
    requires !Nullish(v)
  {
    match v
    case Val(JObj(m)) => Prop(m, key)
    case _ => Undefined
  }

  /** `v[key]` on any value: throws a TypeError on `undefined` and `null`. */
  function Get(v: JsVal, key: string): (r: Result<JsVal, Error>)
    ensures r.Failure? <==> Nullish(v)
    ensures r.Failure? ==> r.error == TypeError
    ensures r.Success? ==> r.value == Member(v, key)
  {
    if Nullish(v) then Failure(TypeError) else Success(Member(v, key))
  }

  /** A JSON value that `===` compares by value rather than by reference. */
  predicate Primitive(j: Json)
  {
    !j.JArr? && !j.JObj?
  }

  /**
   * `a === b`. Two arrays or objects read from different places of a parsed
   * body are different references, so `===` is false for them.
   */
  predicate StrictEquals(a: JsVal, b: JsVal)
  {
    match (a, b)
    case (Undefined, Undefined) => true
    case (Val(x), Val(y)) => Primitive(x) && x == y
    case _ => false
  }

  /**
   * `String(j)`. An array is its items joined with commas, where `null`
   * items become empty; a plain object is "[object Object]".
   */
  function Text(j: Json): string
    decreases j
  {
    match j
    case JNull => "null"
    case JBool(b) => if b then "true" else "false"
    case JNum(n) => Decimal.IntToString(n)
    case JStr(s) => s
    case JArr(items) => JoinText(items)
    case JObj(_) => "[object Object]"
  }

  /** `items.join(",")`. */
  function JoinText(items: seq<Json>): string
    decreases items
  {
    if items == [] then ""
    else
      var first := if items[0] == JNull then "" else Text(items[0]);
      if |items| == 1 then first else first + "," + JoinText(items[1..])
  }
}

=== FILE: legacy_state.dfy ===
/**
 * The older, in-memory user state: a list of user records, each carrying its
 * unlocks, looked up by username alone.
 */
module LegacyState {
  import opened Wrappers
  import opened Js
  import opened BodyParser

  datatype LegacyUnlock = LegacyUnlock(name: string, timestamp: int)

  /** A stored user: a copy of the caller's object, and its unlocks. */
  datatype LegacyUser = LegacyUser(fields: Fragment, achievements: seq<LegacyUnlock>)

  type LegacyState = seq<LegacyUser>

  /** `db.defaults({users: []})`. */
  const Initial: LegacyState := []

  /**
   * lodash `find({username: probe})` on one record: the record has its own
   * `username` key, holding the probe. A record without the key never matches,
   * not even an `undefined` probe.
   */
  predicate SameUsername(u: LegacyUser, probe: JsVal)
  {
    "username" in u.fields && u.fields["username"] == probe
  }

  /** The index of the first record `find` returns. */
  function FindUser(st: LegacyState, probe: JsVal): (r: Option<nat>)
    ensures r.None? <==> forall i :: 0 <= i < |st| ==> !SameUsername(st[i], probe)
    ensures r.Some? ==>
      r.value < |st| && SameUsername(st[r.value], probe)
      && forall j :: 0 <= j < r.value ==> !SameUsername(st[j], probe)
    decreases |st|
  {
    if st == [] then None
    else if SameUsername(st[0], probe) then Some(0)
    else
      match FindUser(st[1..], probe)
      case None => None
      case Some(i) => Some(i + 1)
  }

  /** `createUserIfNotExists`: appends `{...user, achievements: []}` unless `find` sees the username. */
  function CreateUserIfNotExists(st: LegacyState, user: Fragment): (r: LegacyState)
    ensures FindUser(st, Field(user, "username")).Some? ==> r == st
    ensures FindUser(st, Field(user, "username")).None? ==>
      r == st + [LegacyUser(user - {"achievements"}, [])]
  {
    if FindUser(st, Field(user, "username")).Some? then st
    else st + [LegacyUser(user - {"achievements"}, [])]
  }

  /** `userHasAchievement`: creates the user if needed, then looks for an unlock with that name. */
  function UserHasAchievement(st: LegacyState, user: Fragment, name: string): (r: (LegacyState, bool))
    ensures r.0 == CreateUserIfNotExists(st, user)
    ensures r.1 <==> exists i :: (FindUser(r.0, Field(user, "username")) == Some(i)
      && exists k :: 0 <= k < |r.0[i].achievements| && r.0[i].achievements[k].name == name)
  {
    var created := CreateUserIfNotExists(st, user);
    match FindUser(created, Field(user, "username"))
    case None => (created, false)
    case Some(i) => (created, exists k :: 0 <= k < |created[i].achievements| && created[i].achievements[k].name == name)
  }

  /**
   * `unlockAchievement`: creates the user if needed, then appends an unlock
   * stamped `now`. There is no duplicate check; when the user is still not
   * found the push goes to a throw-away array.
   */
  function UnlockAchievement(st: LegacyState, user: Fragment, name: string, now: int): (r: LegacyState)
    ensures var created := CreateUserIfNotExists(st, user);
      && |r| == |created|
      && (FindUser(created, Field(user, "username")).None? ==> r == created)
      && (FindUser(created, Field(user, "username")).Some? ==>
            var i := FindUser(created, Field(user, "username")).value;
            && r[i].fields == created[i].fields
            && r[i].achievements == created[i].achievements + [LegacyUnlock(name, now)]
            && forall j :: 0 <= j < |r| && j != i ==> r[j] == created[j])
  {
    var created := CreateUserIfNotExists(st, user);
    match FindUser(created, Field(user, "username"))
    case None => created
    case Some(i) => created[i := created[i].(achievements := created[i].achievements + [LegacyUnlock(name, now)])]
  }

  /** A user object with a `username` key is found once created, so creating it again changes nothing. */
  lemma CreateIdempotent(st: LegacyState, user: Fragment)
    requires "username" in user
    ensures var once := CreateUserIfNotExists(st, user);
      FindUser(once, Field(user, "username")).Some? && CreateUserIfNotExists(once, user) == once
  {
    var once := CreateUserIfNotExists(st, user);
    if FindUser(st, Field(user, "username")).None? {
      assert SameUsername(once[|st|], Field(user, "username"));
    }
  }

  /**
   * A user object without a `username` key is never found: every call
   * appends another record, nothing reports an unlock, and unlocking stores
   * nothing.
   */
  lemma NoUsernameNeverFound(st: LegacyState, user: Fragment, name: string, now: int)
    requires "username" !in user
    requires forall i :: 0 <= i < |st| ==> !SameUsername(st[i], Undefined)
    ensures |CreateUserIfNotExists(st, user)| == |st| + 1
    ensures !UserHasAchievement(st, user, name).1
    ensures UnlockAchievement(st, user, name, now) == CreateUserIfNotExists(st, user)
  {
    var created := CreateUserIfNotExists(st, user);
    assert forall i :: 0 <= i < |created| ==> !SameUsername(created[i], Undefined);
  }

  /** After an unlock, the same user object reports the achievement. */
  lemma UnlockThenHas(st: LegacyState, user: Fragment, name: string, now: int)
    requires "username" in user
    ensures UserHasAchievement(UnlockAchievement(st, user, name, now), user, name).1
  {
    var created := CreateUserIfNotExists(st, user);
    CreateIdempotent(st, user);
    var i := FindUser(created, Field(user, "username")).value;
    var r := UnlockAchievement(st, user, name, now);
    assert FindUser(r, Field(user, "username")) == Some(i) by {
      assert forall j :: 0 <= j < |r| ==> r[j].fields == created[j].fields;
    }
    assert CreateUserIfNotExists(r, user) == r;
    assert r[i].achievements[|created[i].achievements|].name == name;
  }

  /** Unlocking twice keeps two entries, each with its own timestamp: nothing is de-duplicated. */
  lemma UnlockTwiceKeepsBoth(st: LegacyState, user: Fragment, name: string, t1: int, t2: int)
    requires "username" in user
    ensures var once := UnlockAchievement(st, user, name, t1);
      var twice := UnlockAchievement(once, user, name, t2);
      var found := FindUser(CreateUserIfNotExists(st, user), Field(user, "username"));
      && found.Some?
      && twice[found.value].achievements == once[found.value].achievements + [LegacyUnlock(name, t2)]
      && once[found.value].achievements[|once[found.value].achievements| - 1] == LegacyUnlock(name, t1)
  {
    var created := CreateUserIfNotExists(st, user);
    CreateIdempotent(st, user);
    var i := FindUser(created, Field(user, "username")).value;
    var once := UnlockAchievement(st, user, name, t1);
    assert forall j :: 0 <= j < |once| ==> once[j].fields == created[j].fields;
    assert FindUser(once, Field(user, "username")) == Some(i);
    assert CreateUserIfNotExists(once, user) == once;
  }
}

=== FILE: pipeline.dfy ===
/** The pipeline checker: 'Not your day', ten failed pipelines on one UTC day. */
module PipelineHooks {
  import opened Wrappers
  import opened Js
  import opened BodyParser
  import opened UserStore
  import opened UtcDate
  import opened Hook

  const NotYourDay: string := "Not your day"
  /** Failed pipelines needed on one day; reached or passed (`>=`), not hit exactly. */
  const Threshold: int := 10

  /** A pipeline event whose status is exactly "failed". */
  predicate Failed(body: Obj)
  {
    var oa := Prop(body, "object_attributes");
    !Nullish(oa) && StrictEquals(Member(oa, "status"), Val(JStr("failed")))
  }

  /** The day bucket of a pipeline event: from its own `created_at`, not from the ingest time. */
  function PipelineDay(body: Obj, parseDate: string -> Option<int>): string
    requires !Nullish(Prop(body, "object_attributes"))
  {
    DateKey(ToDate(Member(Prop(body, "object_attributes"), "created_at"), parseDate))
  }

  /** `metadata.pipelines || {}`: a stored value that is not an object is read as absent. */
  function Pipelines(meta: Obj): Obj
  {
    match Prop(meta, "pipelines")
    case Val(JObj(m)) => m
    case _ => map[]
  }

  /** The failed-pipeline count a user has stored for a day. */
  function DayCount(s: Store, user: nat, day: string): int
  {
    Counter(Prop(Pipelines(MetadataOf(s, user, NotYourDay)), day))
  }

  function CheckNotYourDay(s: Store, body: Obj, parseDate: string -> Option<int>): (r: Step)
    ensures var has := UserHasAchievement(s, ParseUser(body), NotYourDay);
      && (has.value ==> r == Step(has.store, Returned(Proposals([]))))
      && (!has.value ==> (r.outcome.Threw? <==> Nullish(Prop(body, "object_attributes"))))
      && (!has.value && !Nullish(Prop(body, "object_attributes")) && !Failed(body) ==>
            r == Step(has.store, Returned(Proposals([]))))
      && (r.outcome.Threw? ==> r.store == has.store)
    ensures (r.outcome.Returned? && r.outcome.result.Proposals?) || r.outcome.Threw?
    ensures |Proposed(r.outcome)| <= 1
    ensures forall p :: p in Proposed(r.outcome) ==> Credits(p, body)
  {
    var has := UserHasAchievement(s, ParseUser(body), NotYourDay);
    if has.value then Step(has.store, Returned(Proposals([])))
    else
      match Get(Prop(body, "object_attributes"), "status")
      case Failure(e) => Step(has.store, Threw(e))
      case Success(status) =>
        if !StrictEquals(status, Val(JStr("failed"))) then Step(has.store, Returned(Proposals([])))
        else
          var counted := CountFailure(has.store, has.user, PipelineDay(body, parseDate));
          ParsedActorCredited(body, has.user, NotYourDay);
          counted
  }

  /** The counting half of the checker, for an actor that has been resolved. */
  function CountFailure(s: Store, user: Fragment, day: string): (r: Step)
    ensures r.outcome.Returned? && r.outcome.result.Proposals?
    ensures forall p :: p in Proposed(r.outcome) ==> p.user - {"uuid"} == user - {"uuid"}
    ensures |Proposed(r.outcome)| <= 1
  {
    var meta := GetMetadata(s, user, NotYourDay);
    var days := Pipelines(meta.value);
    var n := Counter(Prop(days, day)) + 1;
    var stored := SetMetadata(meta.store, meta.user, NotYourDay, meta.value["pipelines" := JObj(days[day := JNum(n)])]);
    if n >= Threshold then
      var cleared := ClearMetadata(stored.store, stored.user, NotYourDay);
      Step(cleared.store, Returned(Proposals([Proposal(cleared.user, NotYourDay)])))
    else
      Step(stored.store, Returned(Proposals([])))
  }

  /** For a resolved actor, counting bumps that day's counter, or deletes all the metadata at the threshold. */
  lemma CountFailureSpec(s: Store, f: Fragment, u: nat, day: string)
    requires Resolved(s, f, u)
    ensures var r := CountFailure(s, f, day);
      var n := DayCount(s, u, day) + 1;
      var meta := MetadataOf(s, u, NotYourDay);
      && r.store.users == s.users && r.store.minted == s.minted && r.store.unlocks == s.unlocks
      && (n >= Threshold ==>
            r.outcome == Returned(Proposals([Proposal(f, NotYourDay)]))
            && r.store.metadata == s.metadata - {(u, NotYourDay)})
      && (n < Threshold ==>
            r.outcome == Returned(Proposals([]))
            && r.store.metadata == s.metadata[(u, NotYourDay) := meta["pipelines" := JObj(Pipelines(meta)[day := JNum(n)])]])
  {
    var meta := MetadataOf(s, u, NotYourDay);
    var value := meta["pipelines" := JObj(Pipelines(meta)[day := JNum(DayCount(s, u, day) + 1)])];
    var stored := s.(metadata := s.metadata[(u, NotYourDay) := value]);
    MetadataOnResolved(s, f, u, NotYourDay, value);
    ResolveReadsUsersOnly(s, stored, f);
    MetadataOnResolved(stored, f, u, NotYourDay, value);
    if DayCount(s, u, day) + 1 < Threshold {
      assert CountFailure(s, f, day) == Step(stored, Returned(Proposals([])));
    }
  }

  /** A failed pipeline of an actor without the achievement goes straight to the counter. */
  lemma NotYourDayDelegates(s: Store, body: Obj, parseDate: string -> Option<int>)
    requires Failed(body)
    requires !UserHasAchievement(s, ParseUser(body), NotYourDay).value
    ensures var has := UserHasAchievement(s, ParseUser(body), NotYourDay);
      CheckNotYourDay(s, body, parseDate) == CountFailure(has.store, has.user, PipelineDay(body, parseDate))
  {
  }

  /** Counting sets a day's count to `n` and leaves the other days as they were. */
  lemma BumpSetsDay(s: Store, t: Store, u: nat, day: string, n: int)
    requires var meta := MetadataOf(s, u, NotYourDay);
      t.metadata == s.metadata[(u, NotYourDay) := meta["pipelines" := JObj(Pipelines(meta)[day := JNum(n)])]]
    ensures DayCount(t, u, day) == n
    ensures forall other :: other != day ==> DayCount(t, u, other) == DayCount(s, u, other)
  {
  }

  /** The pipeline checker writes only the actor's own 'Not your day' metadata and never an unlock. */
  lemma NotYourDayFrame(s: Store, body: Obj, parseDate: string -> Option<int>)
    requires Valid(s)
    ensures var a := CreateOrUpdateUser(s, ParseUser(body));
      var r := CheckNotYourDay(s, body, parseDate);
      OnlyMetadataOf(a.store, r.store, a.value, NotYourDay)
  {
    var f := ParseUser(body);
    var a := CreateOrUpdateUser(s, f);
    if Failed(body) && !Unlocked(s.unlocks, a.value, NotYourDay) {
      assert OnlyMetadataOf(a.store, CheckNotYourDay(s, body, parseDate).store, a.value, NotYourDay) by {
        CreateOrUpdateIdempotent(s, f);
        NotYourDayDelegates(s, body, parseDate);
        CountFailureSpec(a.store, a.user, a.value, PipelineDay(body, parseDate));
      }
    }
  }

  /**
   * A failed pipeline raises only its own day's counter, by exactly one
   * (from 0 when absent). Reaching the threshold proposes the achievement and
   * deletes all of its metadata; below it nothing is proposed.
   */
  lemma NotYourDayCounts(s: Store, body: Obj, parseDate: string -> Option<int>)
    requires Valid(s)
    requires Failed(body)
    requires !Unlocked(s.unlocks, CreateOrUpdateUser(s, ParseUser(body)).value, NotYourDay)
    ensures var a := CreateOrUpdateUser(s, ParseUser(body));
      var r := CheckNotYourDay(s, body, parseDate);
      var day := PipelineDay(body, parseDate);
      var n := DayCount(s, a.value, day) + 1;
      && (n >= Threshold ==>
            r.outcome == Returned(Proposals([Proposal(a.user, NotYourDay)]))
            && (a.value, NotYourDay) !in r.store.metadata)
      && (n < Threshold ==>
            r.outcome == Returned(Proposals([]))
            && DayCount(r.store, a.value, day) == n
            && forall other :: other != day ==> DayCount(r.store, a.value, other) == DayCount(s, a.value, other))
  {
    var f := ParseUser(body);
    var a := CreateOrUpdateUser(s, f);
    CreateOrUpdateIdempotent(s, f);
    NotYourDayDelegates(s, body, parseDate);
    CountFailureCounts(a.store, a.user, a.value, PipelineDay(body, parseDate));
  }

  /** For a resolved actor, counting raises the day's count by one, proposing and clearing at the threshold. */
  lemma CountFailureCounts(s: Store, f: Fragment, u: nat, day: string)
    requires Resolved(s, f, u)
    ensures var r := CountFailure(s, f, day);
      var n := DayCount(s, u, day) + 1;
      && (n >= Threshold ==>
            r.outcome == Returned(Proposals([Proposal(f, NotYourDay)]))
            && (u, NotYourDay) !in r.store.metadata)
      && (n < Threshold ==>
            r.outcome == Returned(Proposals([]))
            && DayCount(r.store, u, day) == n
            && forall other :: other != day ==> DayCount(r.store, u, other) == DayCount(s, u, other))
  {
    CountFailureSpec(s, f, u, day);
    var r := CountFailure(s, f, day);
    if DayCount(s, u, day) + 1 < Threshold {
      BumpSetsDay(s, r.store, u, day, DayCount(s, u, day) + 1);
    }
  }

  /** The pipeline checker keeps the store's constraints. */
  lemma NotYourDayPreservesValid(s: Store, body: Obj, parseDate: string -> Option<int>)
    requires Valid(s)
    ensures Valid(CheckNotYourDay(s, body, parseDate).store)
  {
    var f := ParseUser(body);
    var a := CreateOrUpdateUser(s, f);
    var r := CheckNotYourDay(s, body, parseDate);
    CreateOrUpdatePreservesValid(s, f);
    ResolvedIsMinted(s, f);
    if Failed(body) && !Unlocked(s.unlocks, a.value, NotYourDay) {
      CreateOrUpdateIdempotent(s, f);
      NotYourDayDelegates(s, body, parseDate);
      CountFailureSpec(a.store, a.user, a.value, PipelineDay(body, parseDate));
      MetadataChangeKeepsValid(a.store, r.store);
    }
  }

  /** A failed pipeline from actor `f`, bucketed on `day`. */
  predicate FailureOn(body: Obj, f: Fragment, day: string, parseDate: string -> Option<int>)
  {
    Failed(body) && ParseUser(body) == f && PipelineDay(body, parseDate) == day
  }

  /** The store after the checker has seen each body in turn, first to last (proposals are not applied here). */
  function Replay(s: Store, bodies: seq<Obj>, parseDate: string -> Option<int>): Store
    decreases |bodies|
  {
    if bodies == [] then s
    else CheckNotYourDay(Replay(s, bodies[..|bodies| - 1], parseDate), bodies[|bodies| - 1], parseDate).store
  }

  /** An actor the store has never seen has no unlocks and no counts. */
  lemma UnseenActorStartsClean(s: Store, f: Fragment)
    requires Valid(s)
    requires LookupUser(s.users, f).None?
    ensures var a := CreateOrUpdateUser(s, f);
      !Unlocked(s.unlocks, a.value, NotYourDay) && forall day :: DayCount(s, a.value, day) == 0
  {
    var a := CreateOrUpdateUser(s, f);
    assert (a.value, NotYourDay) !in s.metadata;
  }

  /**
   * The first failure of an identified actor resolves (and may create) the
   * actor; from then on its fragment resolves to the same user without change.
   */
  lemma FirstFailure(s: Store, body: Obj, parseDate: string -> Option<int>, day: string)
    requires Valid(s)
    requires Failed(body) && Identified(ParseUser(body)) && PipelineDay(body, parseDate) == day
    requires var a := CreateOrUpdateUser(s, ParseUser(body));
      !Unlocked(s.unlocks, a.value, NotYourDay) && DayCount(s, a.value, day) == 0
    ensures var a := CreateOrUpdateUser(s, ParseUser(body));
      var r := CheckNotYourDay(s, body, parseDate);
      && r.outcome == Returned(Proposals([]))
      && Valid(r.store) && Resolved(r.store, ParseUser(body), a.value)
      && !Unlocked(r.store.unlocks, a.value, NotYourDay) && DayCount(r.store, a.value, day) == 1
  {
    var f := ParseUser(body);
    var a := CreateOrUpdateUser(s, f);
    var r := CheckNotYourDay(s, body, parseDate);
    ParseUserKeys(body);
    ResolveFreshCopy(s, f);
    NotYourDayFrame(s, body, parseDate);
    NotYourDayCounts(s, body, parseDate);
    NotYourDayPreservesValid(s, body, parseDate);
    ResolveReadsUsersOnly(a.store, r.store, f);
  }

  /** One failure below the threshold from a resolved actor: nothing proposed, the day's count up by one. */
  lemma FailureBelowThreshold(s: Store, body: Obj, parseDate: string -> Option<int>, f: Fragment, u: nat, day: string)
    requires Valid(s) && Resolved(s, f, u) && !Unlocked(s.unlocks, u, NotYourDay)
    requires FailureOn(body, f, day, parseDate)
    requires DayCount(s, u, day) + 1 < Threshold
    ensures var r := CheckNotYourDay(s, body, parseDate);
      && r.outcome == Returned(Proposals([]))
      && Valid(r.store) && Resolved(r.store, f, u) && r.store.unlocks == s.unlocks
      && DayCount(r.store, u, day) == DayCount(s, u, day) + 1
  {
    var r := CheckNotYourDay(s, body, parseDate);
    NotYourDayFrame(s, body, parseDate);
    NotYourDayCounts(s, body, parseDate);
    NotYourDayPreservesValid(s, body, parseDate);
    ResolveReadsUsersOnly(s, r.store, f);
  }

  /** A run of failures below the threshold raises the count by its length and leaves the actor as it was. */
  lemma {:induction false} FailureRun(s: Store, bodies: seq<Obj>, parseDate: string -> Option<int>,
                                      f: Fragment, u: nat, day: string)
    requires Valid(s) && Resolved(s, f, u) && !Unlocked(s.unlocks, u, NotYourDay)
    requires forall j :: 0 <= j < |bodies| ==> FailureOn(bodies[j], f, day, parseDate)
    requires DayCount(s, u, day) + |bodies| < Threshold
    ensures var t := Replay(s, bodies, parseDate);
      Valid(t) && Resolved(t, f, u) && t.unlocks == s.unlocks && DayCount(t, u, day) == DayCount(s, u, day) + |bodies|
    decreases |bodies|
  {
    if bodies != [] {
      var init := bodies[..|bodies| - 1];
      assert forall j :: 0 <= j < |init| ==> init[j] == bodies[j];
      FailureRun(s, init, parseDate, f, u, day);
      FailureBelowThreshold(Replay(s, init, parseDate), bodies[|bodies| - 1], parseDate, f, u, day);
    }
  }

  /** The failure at position `i` of such a run proposes nothing. */
  lemma FailureQuietAt(s: Store, bodies: seq<Obj>, parseDate: string -> Option<int>,
                       f: Fragment, u: nat, day: string, i: nat)
    requires Valid(s) && Resolved(s, f, u) && !Unlocked(s.unlocks, u, NotYourDay)
    requires forall j :: 0 <= j < |bodies| ==> FailureOn(bodies[j], f, day, parseDate)
    requires DayCount(s, u, day) + |bodies| < Threshold
    requires i < |bodies|
    ensures CheckNotYourDay(Replay(s, bodies[..i], parseDate), bodies[i], parseDate).outcome == Returned(Proposals([]))
  {
    var prefix := bodies[..i];
    assert forall j :: 0 <= j < |prefix| ==> prefix[j] == bodies[j];
    FailureRun(s, prefix, parseDate, f, u, day);
    FailureBelowThreshold(Replay(s, prefix, parseDate), bodies[i], parseDate, f, u, day);
  }

  /**
   * Failures below the threshold, one after another from a resolved actor,
   * each propose nothing and together add their number to that day's count.
   */
  lemma FailuresAccumulate(s: Store, bodies: seq<Obj>, parseDate: string -> Option<int>,
                           f: Fragment, u: nat, day: string)
    requires Valid(s) && Resolved(s, f, u) && !Unlocked(s.unlocks, u, NotYourDay)
    requires forall i :: 0 <= i < |bodies| ==> FailureOn(bodies[i], f, day, parseDate)
    requires DayCount(s, u, day) + |bodies| < Threshold
    ensures var t := Replay(s, bodies, parseDate);
      Valid(t) && Resolved(t, f, u) && t.unlocks == s.unlocks && DayCount(t, u, day) == DayCount(s, u, day) + |bodies|
    ensures forall i :: 0 <= i < |bodies| ==>
      CheckNotYourDay(Replay(s, bodies[..i], parseDate), bodies[i], parseDate).outcome == Returned(Proposals([]))
  {
    FailureRun(s, bodies, parseDate, f, u, day);
    forall i | 0 <= i < |bodies|
      ensures CheckNotYourDay(Replay(s, bodies[..i], parseDate), bodies[i], parseDate).outcome == Returned(Proposals([]))
    {
      FailureQuietAt(s, bodies, parseDate, f, u, day, i);
    }
  }

  /**
   * Nine failed pipelines of one actor on one UTC day propose nothing; the
   * tenth proposes 'Not your day' for that actor.
   */
  lemma TenthFailureUnlocks(s: Store, first: Obj, rest: seq<Obj>, last: Obj, parseDate: string -> Option<int>, day: string)
    requires Valid(s)
    requires Identified(ParseUser(first))
    requires var a := CreateOrUpdateUser(s, ParseUser(first));
      !Unlocked(s.unlocks, a.value, NotYourDay) && DayCount(s, a.value, day) == 0
    requires |rest| == 8
    requires FailureOn(first, ParseUser(first), day, parseDate)
    requires forall i :: 0 <= i < |rest| ==> FailureOn(rest[i], ParseUser(first), day, parseDate)
    requires FailureOn(last, ParseUser(first), day, parseDate)
    ensures CheckNotYourDay(s, first, parseDate).outcome == Returned(Proposals([]))
    ensures var t := CheckNotYourDay(s, first, parseDate).store;
      forall i :: 0 <= i < 8 ==>
        CheckNotYourDay(Replay(t, rest[..i], parseDate), rest[i], parseDate).outcome == Returned(Proposals([]))
    ensures var t := Replay(CheckNotYourDay(s, first, parseDate).store, rest, parseDate);
      CheckNotYourDay(t, last, parseDate).outcome == Returned(Proposals([Proposal(ParseUser(first), NotYourDay)]))
  {
    var f := ParseUser(first);
    var u := CreateOrUpdateUser(s, f).value;
    FirstFailure(s, first, parseDate, day);
    var r := CheckNotYourDay(s, first, parseDate).store;
    FailuresAccumulate(r, rest, parseDate, f, u, day);
    var t := Replay(r, rest, parseDate);
    assert CreateOrUpdateUser(t, f) == Access(t, f, u);
    NotYourDayCounts(t, last, parseDate);
  }
}

=== FILE: push.dfy ===
/** The push checkers: 'First blood' and 'Night's watchman'. */
module PushHooks {
  import opened Wrappers
  import opened Js
  import opened BodyParser
  import opened UserStore
  import opened UtcDate
  import opened Hook

  const FirstBlood: string := "First blood"
  const NightsWatchman: string := "Night's watchman"

  /** 'First blood': proposed to every pusher who does not have it yet. */
  function CheckFirstBlood(s: Store, body: Obj): (r: Step)
    ensures var has := UserHasAchievement(s, ParseUser(body), FirstBlood);
      && r.store == has.store
      && r.outcome.Returned? && r.outcome.result.Proposals?
      && (has.value <==> Proposed(r.outcome) == [])
      && (!has.value ==> Proposed(r.outcome) == [Proposal(has.user, FirstBlood)])
    ensures forall p :: p in Proposed(r.outcome) ==> Credits(p, body)
  {
    var has := UserHasAchievement(s, ParseUser(body), FirstBlood);
    ParsedActorCredited(body, has.user, FirstBlood);
    if has.value then Step(has.store, Returned(Proposals([])))
    else Step(has.store, Returned(Proposals([Proposal(has.user, FirstBlood)])))
  }

  /** A UTC hour from 1 through 3 inclusive. */
  predicate NightTime(t: Option<int>)
  {
    t.Some? && 1 <= HourOf(t.value) <= 3
  }

  /** `for (const commit of v)`: arrays yield their items, strings their characters; other values throw. */
  function Iterate(v: JsVal): (r: Result<seq<Json>, Error>)
    ensures v.Val? && v.json.JArr? ==> r == Success(v.json.items)
    ensures Nullish(v) ==> r.Failure?
  {
    match v
    case Val(JArr(items)) => Success(items)
    case Val(JStr(s)) => Success(seq(|s|, i requires 0 <= i < |s| => JStr([s[i]])))
    case _ => Failure(TypeError)
  }

  /** A commit entry written during the night: `new Date(commit.timestamp)` has hour 1..3. */
  predicate NightCommit(c: Json, parseDate: string -> Option<int>)
  {
    c.JObj? && NightTime(ToDate(Prop(c.fields, "timestamp"), parseDate))
  }

  /**
   * The loop over the commits: stops at the first night commit (true), or at
   * the first `null` entry, whose `.timestamp` read throws.
   */
  function ScanCommits(commits: seq<Json>, parseDate: string -> Option<int>): (r: Result<bool, Error>)
    ensures r == Success(true) ==> exists i :: 0 <= i < |commits| && NightCommit(commits[i], parseDate)
    ensures r.Failure? ==> r.error == TypeError && JNull in commits
    ensures r == Success(false) ==> forall i :: 0 <= i < |commits| ==> !NightCommit(commits[i], parseDate)
  {
    if commits == [] then Success(false)
    else if commits[0] == JNull then Failure(TypeError)
    else if NightCommit(commits[0], parseDate) then Success(true)
    else
      assert forall i :: 1 <= i < |commits| ==> commits[i] == commits[1..][i - 1];
      ScanCommits(commits[1..], parseDate)
  }

  /**
   * The loop answers true exactly when some commit is a night commit and no
   * `null` entry comes before it.
   */
  lemma {:induction false} ScanFindsNightCommit(commits: seq<Json>, parseDate: string -> Option<int>)
    ensures ScanCommits(commits, parseDate) == Success(true) <==>
      exists i :: 0 <= i < |commits| && NightCommit(commits[i], parseDate)
        && forall j :: 0 <= j < i ==> commits[j] != JNull
  {
    if commits != [] && commits[0] != JNull && !NightCommit(commits[0], parseDate) {
      var tail := commits[1..];
      ScanFindsNightCommit(tail, parseDate);
      assert forall i :: 1 <= i < |commits| ==> commits[i] == tail[i - 1];
      if ScanCommits(tail, parseDate) == Success(true) {
        var i :| 0 <= i < |tail| && NightCommit(tail[i], parseDate)
          && forall j :: 0 <= j < i ==> tail[j] != JNull;
        assert NightCommit(commits[i + 1], parseDate) && forall j :: 0 <= j < i + 1 ==> commits[j] != JNull;
      }
      if exists i :: 0 <= i < |commits| && NightCommit(commits[i], parseDate)
          && forall j :: 0 <= j < i ==> commits[j] != JNull {
        var i :| 0 <= i < |commits| && NightCommit(commits[i], parseDate)
          && forall j :: 0 <= j < i ==> commits[j] != JNull;
        assert i >= 1 && NightCommit(tail[i - 1], parseDate);
      }
    }
  }

  /**
   * The loop throws exactly when a `null` entry comes before any night
   * commit.
   */
  lemma {:induction false} ScanThrowsOnNull(commits: seq<Json>, parseDate: string -> Option<int>)
    ensures ScanCommits(commits, parseDate).Failure? <==>
      exists i :: 0 <= i < |commits| && commits[i] == JNull
        && forall j :: 0 <= j < i ==> !NightCommit(commits[j], parseDate)
  {
    if commits != [] && commits[0] != JNull && !NightCommit(commits[0], parseDate) {
      var tail := commits[1..];
      ScanThrowsOnNull(tail, parseDate);
      assert forall i :: 1 <= i < |commits| ==> commits[i] == tail[i - 1];
      if ScanCommits(tail, parseDate).Failure? {
        var i :| 0 <= i < |tail| && tail[i] == JNull
          && forall j :: 0 <= j < i ==> !NightCommit(tail[j], parseDate);
        assert commits[i + 1] == JNull && forall j :: 0 <= j < i + 1 ==> !NightCommit(commits[j], parseDate);
      }
      if exists i :: 0 <= i < |commits| && commits[i] == JNull
          && forall j :: 0 <= j < i ==> !NightCommit(commits[j], parseDate) {
        var i :| 0 <= i < |commits| && commits[i] == JNull
          && forall j :: 0 <= j < i ==> !NightCommit(commits[j], parseDate);
        assert i >= 1 && tail[i - 1] == JNull;
      }
    }
  }

  /** 'Night's watchman': proposed to the pusher when some commit was written between 1AM and 3AM UTC. */
  function CheckNightsWatchman(s: Store, body: Obj, parseDate: string -> Option<int>): (r: Step)
    ensures var has := UserHasAchievement(s, ParseUser(body), NightsWatchman);
      && r.store == has.store
      && (has.value ==> r.outcome == Returned(Proposals([])))
      && (!has.value && Iterate(Prop(body, "commits")).Failure? ==> r.outcome.Threw?)
      && (!has.value && Iterate(Prop(body, "commits")).Success? ==>
            var scan := ScanCommits(Iterate(Prop(body, "commits")).value, parseDate);
            && (scan.Failure? <==> r.outcome.Threw?)
            && (scan == Success(true) <==> Proposed(r.outcome) == [Proposal(has.user, NightsWatchman)])
            && (scan == Success(false) <==> r.outcome == Returned(Proposals([]))))
    ensures |Proposed(r.outcome)| <= 1
    ensures forall p :: p in Proposed(r.outcome) ==> Credits(p, body)
  {
    var has := UserHasAchievement(s, ParseUser(body), NightsWatchman);
    ParsedActorCredited(body, has.user, NightsWatchman);
    if has.value then Step(has.store, Returned(Proposals([])))
    else
      match Iterate(Prop(body, "commits"))
      case Failure(e) => Step(has.store, Threw(e))
      case Success(commits) =>
        match ScanCommits(commits, parseDate)
        case Failure(e) => Step(has.store, Threw(e))
        case Success(night) =>
          if night then Step(has.store, Returned(Proposals([Proposal(has.user, NightsWatchman)])))
          else Step(has.store, Returned(Proposals([])))
  }

  /** An empty commit array never earns 'Night's watchman'. */
  lemma NoCommitsNoWatchman(s: Store, body: Obj, parseDate: string -> Option<int>)
    requires Prop(body, "commits") == Val(JArr([]))
    ensures CheckNightsWatchman(s, body, parseDate).outcome == Returned(Proposals([]))
  {
  }
}

=== FILE: registry.dfy ===
/** The hook registry: which checker list runs for which `object_kind`. */
module Registry {
  import opened Wrappers
  import opened Js

  /** The eight hook modules the registry knows. */
  datatype HookModule = Push | Tag | Issue | Comment | MergeRequest | Wiki | Pipeline | Job

  /**
   * One checker of a hook list. The push, comment and pipeline checkers are
   * modelled; every checker of the other five modules is `Opaque`.
   */
  datatype Checker =
    | FirstBlood
    | NightsWatchman
    | YouSeeMyPoint
    | ReviewerRank
    | NotYourDay
    | Opaque(owner: HookModule, index: nat)

  /** The GitLab `object_kind` each module answers to. */
  function KindOf(m: HookModule): string
  {
    match m
    case Push => "push"
    case Tag => "tag_push"
    case Issue => "issue"
    case Comment => "note"
    case MergeRequest => "merge_request"
    case Wiki => "wiki_page"
    case Pipeline => "pipeline"
    case Job => "build"
  }

  /** `hookByKind`: strict comparisons against the eight kinds, in order; anything else is `null`. */
  function HookByKind(kind: JsVal): (r: Option<HookModule>)
    ensures r.Some? ==> kind == Val(JStr(KindOf(r.value)))
  {
    if StrictEquals(kind, Val(JStr("push"))) then Some(Push)
    else if StrictEquals(kind, Val(JStr("tag_push"))) then Some(Tag)
    else if StrictEquals(kind, Val(JStr("issue"))) then Some(Issue)
    else if StrictEquals(kind, Val(JStr("note"))) then Some(Comment)
    else if StrictEquals(kind, Val(JStr("merge_request"))) then Some(MergeRequest)
    else if StrictEquals(kind, Val(JStr("wiki_page"))) then Some(Wiki)
    else if StrictEquals(kind, Val(JStr("pipeline"))) then Some(Pipeline)
    else if StrictEquals(kind, Val(JStr("build"))) then Some(Job)
    else None
  }

  /** Every module is reached from its own kind string, and from nothing else. */
  lemma HookByKindInverse(kind: JsVal, m: HookModule)
    ensures HookByKind(kind) == Some(m) <==> kind == Val(JStr(KindOf(m)))
  {
  }

  /** Different modules answer to different kinds. */
  lemma KindOfInjective(m1: HookModule, m2: HookModule)
    ensures KindOf(m1) == KindOf(m2) ==> m1 == m2
  {
  }

  /** A kind that is not one of the eight strings, or not a string at all, selects no hooks. */
  lemma UnknownKindHasNoHooks(kind: JsVal)
    requires forall m: HookModule :: kind != Val(JStr(KindOf(m)))
    ensures HookByKind(kind) == None
  {
  }

  /**
   * The checker list of a module, in export order. The lists of the five
   * modules not modelled here have `opaqueCount` entries.
   */
  function HookList(m: HookModule, opaqueCount: HookModule -> nat): (r: seq<Checker>)
    ensures m == Push ==> r == [FirstBlood, NightsWatchman]
    ensures m == Comment ==> r == [YouSeeMyPoint, ReviewerRank]
    ensures m == Pipeline ==> r == [NotYourDay]
    ensures m !in {Push, Comment, Pipeline} ==>
      |r| == opaqueCount(m) && forall i :: 0 <= i < |r| ==> r[i] == Opaque(m, i)
  {
    match m
    case Push => [FirstBlood, NightsWatchman]
    case Comment => [YouSeeMyPoint, ReviewerRank]
    case Pipeline => [NotYourDay]
    case _ => seq(opaqueCount(m), i requires 0 <= i => Opaque(m, i))
  }

  /** Every checker on a list belongs to the module the list was chosen for. */
  function OwnerOf(c: Checker): HookModule
  {
    match c
    case FirstBlood => Push
    case NightsWatchman => Push
    case YouSeeMyPoint => Comment
    case ReviewerRank => Comment
    case NotYourDay => Pipeline
    case Opaque(m, _) => m
  }

  lemma HookListOwned(m: HookModule, opaqueCount: HookModule -> nat)
    ensures forall c :: c in HookList(m, opaqueCount) ==> OwnerOf(c) == m
  {
  }
}

=== FILE: server.dfy ===
/**
 * The server: the `/webhook` endpoint, the replay of the stored webhooks at
 * startup, and the `/users` endpoints.
 */
module Server {
  import opened Wrappers
  import opened Js
  import opened UserStore
  import opened Registry
  import opened Engine
  import WebhookLog

  /** The two stores the server keeps. */
  datatype State = State(users: Store, log: WebhookLog.Log)

  /** The server as it starts: both tables empty. */
  const Fresh: State := State(Empty, [])

  /** What the server is configured with: the `GITLAB_TOKEN` variable, the JSON codec and the hook environment. */
  datatype Config = Config(gitlabToken: Option<string>, codec: WebhookLog.Codec, env: Env)

  /** A `/webhook` request: the `X-Gitlab-Event` and `X-Gitlab-Token` headers and the parsed JSON body. */
  datatype Request = Request(event: Option<string>, token: Option<string>, body: Json)

  /** A status and a JSON body, or no reply at all when the handler throws outside its `try` blocks. */
  datatype Reply = Reply(status: int, body: Json) | NoReply

  datatype Handled = Handled(state: State, reply: Reply)

  function ErrorBody(message: string): Json
  {
    JObj(map["error" := JStr(message)])
  }

  const EmptyBody: Json := JObj(map[])

  /** Whether the two headers let a request through (the checks before anything is stored). */
  predicate Admitted(req: Request, cfg: Config)
  {
    req.event.Some? && req.event.value != "" && req.token == cfg.gitlabToken
  }

  /**
   * `POST /webhook`. The checks run in this order: the event header, the
   * token, storing the body (failure is `storeOk == false`), the hook kind,
   * the hooks. The body is stored before its kind is looked at. `ingestNow`
   * and `hookNow` are the two clock readings the handler takes.
   */
  function HandleWebhook(st: State, req: Request, cfg: Config, storeOk: bool, ingestNow: int, hookNow: int): (r: Handled)
    ensures req.event.None? || req.event == Some("") ==>
      r == Handled(st, Reply(400, ErrorBody("Missing GitLab event header")))
    ensures req.event.Some? && req.event.value != "" && req.token != cfg.gitlabToken ==>
      r == Handled(st, Reply(403, ErrorBody("Missing or bad GitLab token header")))
    ensures Admitted(req, cfg) && !storeOk ==> r == Handled(st, Reply(500, EmptyBody))
    ensures Admitted(req, cfg) && storeOk ==> r.state.log == WebhookLog.Store(st.log, cfg.codec, req.body, ingestNow)
    ensures r.state.users != st.users ==> Admitted(req, cfg) && storeOk && req.body.JObj?
    ensures r.reply.NoReply? <==> Admitted(req, cfg) && storeOk && req.body == JNull
  {
    if req.event.None? || req.event.value == "" then
      Handled(st, Reply(400, ErrorBody("Missing GitLab event header")))
    else if req.token != cfg.gitlabToken then
      Handled(st, Reply(403, ErrorBody("Missing or bad GitLab token header")))
    else if !storeOk then
      Handled(st, Reply(500, EmptyBody))
    else
      var logged := st.(log := WebhookLog.Store(st.log, cfg.codec, req.body, ingestNow));
      match Get(Val(req.body), "object_kind")
      case Failure(_) => Handled(logged, NoReply)
      case Success(kind) =>
        match HookByKind(kind)
        case None => Handled(logged, Reply(400, ErrorBody("No such hook")))
        case Some(m) =>
          var e := ExecuteHooks(st.users, req.body.fields, HookList(m, cfg.env.opaqueCount), hookNow, cfg.env);
          Handled(logged.(users := e.store), Reply(if e.error.Some? then 500 else 200, EmptyBody))
  }

  /** A well-formed hook request is answered 200 exactly when no checker threw. */
  lemma WebhookStatus(st: State, req: Request, cfg: Config, ingestNow: int, hookNow: int, m: HookModule)
    requires Admitted(req, cfg)
    requires req.body.JObj? && HookByKind(Prop(req.body.fields, "object_kind")) == Some(m)
    ensures var r := HandleWebhook(st, req, cfg, true, ingestNow, hookNow);
      var e := ExecuteHooks(st.users, req.body.fields, HookList(m, cfg.env.opaqueCount), hookNow, cfg.env);
      r.state.users == e.store && (r.reply == Reply(200, EmptyBody) <==> e.error.None?)
  {
  }

  /** A request whose kind names no hook module is still stored, and answered 400. */
  lemma UnknownKindStoredAnyway(st: State, req: Request, cfg: Config, ingestNow: int, hookNow: int)
    requires Admitted(req, cfg)
    requires req.body != JNull
    requires req.body.JObj? ==> HookByKind(Prop(req.body.fields, "object_kind")).None?
    ensures var r := HandleWebhook(st, req, cfg, true, ingestNow, hookNow);
      r.reply == Reply(400, ErrorBody("No such hook"))
      && r.state == State(st.users, WebhookLog.Store(st.log, cfg.codec, req.body, ingestNow))
  {
  }

  /**
   * One stored webhook in `checkStoredWebhooks`. Reading `object_kind` is
   * outside the `try`, so a `null` body aborts the whole replay; an unknown
   * kind is skipped; a checker error is caught and the store keeps whatever
   * the hooks did before it.
   */
  function ReplayOne(users: Store, w: WebhookLog.Webhook, env: Env): (r: Result<Store, Error>)
    ensures r.Failure? <==> w.body == JNull
    ensures w.body != JNull && HookByKind(Member(Val(w.body), "object_kind")).None? ==> r == Success(users)
    ensures w.body.JObj? && HookByKind(Prop(w.body.fields, "object_kind")).Some? ==>
      var m := HookByKind(Prop(w.body.fields, "object_kind")).value;
      r == Success(ExecuteHooks(users, w.body.fields, HookList(m, env.opaqueCount), w.created, env).store)
  {
    match Get(Val(w.body), "object_kind")
    case Failure(e) => Failure(e)
    case Success(kind) =>
      match HookByKind(kind)
      case None => Success(users)
      case Some(m) => Success(ExecuteHooks(users, w.body.fields, HookList(m, env.opaqueCount), w.created, env).store)
  }

  /** The replay loop over loaded webhooks, in table order. */
  function ReplayAll(users: Store, ws: seq<WebhookLog.Webhook>, env: Env): (r: Result<Store, Error>)
    ensures r.Failure? <==> exists i :: 0 <= i < |ws| && ws[i].body == JNull
    decreases |ws|
  {
    if ws == [] then Success(users)
    else
      assert forall i :: 1 <= i < |ws| ==> ws[i] == ws[1..][i - 1];
      match ReplayOne(users, ws[0], env)
      case Failure(e) => Failure(e)
      case Success(next) => ReplayAll(next, ws[1..], env)
  }

  /** `checkStoredWebhooks`: a log that fails to load is skipped as if it were empty. */
  function CheckStoredWebhooks(users: Store, log: WebhookLog.Log, cfg: Config): (r: Result<Store, Error>)
    ensures WebhookLog.GetWebhooks(log, cfg.codec).Failure? ==> r == Success(users)
  {
    var ws := match WebhookLog.GetWebhooks(log, cfg.codec)
      case Success(ws) => ws
      case Failure(_) => [];
    ReplayAll(users, ws, cfg.env)
  }

  /**
   * `start`: the user store file is unlinked, opened again and rebuilt by
   * replaying the stored webhooks. `kept` is what the unlink left on disk:
   * `None` when the file was removed or never existed, the old store when
   * `unlinkSync` threw for another reason, which is only logged. The replay
   * then runs on top of the old store. A failure means the replay threw and
   * the server never listens.
   */
  function Startup(log: WebhookLog.Log, cfg: Config, kept: Option<Store>): (r: Result<Store, Error>)
    ensures WebhookLog.GetWebhooks(log, cfg.codec).Failure? ==>
      r == Success(if kept.Some? then kept.value else Empty)
  {
    var start := match kept
      case Some(previous) => previous
      case None => Empty;
    CheckStoredWebhooks(start, log, cfg)
  }

  /** A log that loads is replayed on the start store: the kept store, or an empty one when the file was removed. */
  lemma StartupReplays(log: WebhookLog.Log, cfg: Config, kept: Option<Store>)
    ensures WebhookLog.GetWebhooks(log, cfg.codec).Success? ==>
      Startup(log, cfg, kept) ==
        ReplayAll(if kept.Some? then kept.value else Empty, WebhookLog.GetWebhooks(log, cfg.codec).value, cfg.env)
  {
  }

  /** A store the unlink failed to remove survives startup: with an empty log it is the whole result. */
  lemma FailedUnlinkKeepsStore(cfg: Config, previous: Store)
    ensures Startup([], cfg, Some(previous)) == Success(previous)
  {
  }

  /** Replaying a longer list is replaying its prefix, then the last webhook. */
  lemma {:induction false} ReplayAllSnoc(users: Store, ws: seq<WebhookLog.Webhook>, w: WebhookLog.Webhook, env: Env)
    ensures ReplayAll(users, ws + [w], env) ==
      match ReplayAll(users, ws, env)
      case Failure(e) => Failure(e)
      case Success(u) => ReplayOne(u, w, env)
    decreases |ws|
  {
    if ws == [] {
      assert [] + [w] == [w];
      assert [w][1..] == [];
    } else {
      assert (ws + [w])[0] == ws[0];
      assert (ws + [w])[1..] == ws[1..] + [w];
      match ReplayOne(users, ws[0], env)
      case Failure(e) =>
      case Success(next) => ReplayAllSnoc(next, ws[1..], w, env);
    }
  }

  /** A delivery: the request, whether storing it succeeds, and the clock when it arrives. */
  datatype Delivery = Delivery(request: Request, storeOk: bool, now: int)

  /** The state after a sequence of deliveries, each handled with a single clock reading. */
  function Serve(st: State, ds: seq<Delivery>, cfg: Config): State
    decreases |ds|
  {
    if ds == [] then st
    else
      var d := ds[|ds| - 1];
      HandleWebhook(Serve(st, ds[..|ds| - 1], cfg), d.request, cfg, d.storeOk, d.now, d.now).state
  }

  /** One delivery keeps "the log replays to the user store". */
  lemma ServeStep(st: State, d: Delivery, cfg: Config)
    requires WebhookLog.RoundTrips(cfg.codec)
    requires d.request.body != JNull
    requires WebhookLog.GetWebhooks(st.log, cfg.codec).Success?
    requires CheckStoredWebhooks(Empty, st.log, cfg) == Success(st.users)
    ensures var next := HandleWebhook(st, d.request, cfg, d.storeOk, d.now, d.now).state;
      WebhookLog.GetWebhooks(next.log, cfg.codec).Success?
      && CheckStoredWebhooks(Empty, next.log, cfg) == Success(next.users)
  {
    var req := d.request;
    if Admitted(req, cfg) && d.storeOk {
      var ws := WebhookLog.GetWebhooks(st.log, cfg.codec).value;
      var w := WebhookLog.Webhook(cfg.codec.md5(cfg.codec.stringify(req.body)), d.now, req.body);
      WebhookLog.StoreThenLoad(st.log, cfg.codec, req.body, d.now);
      ReplayAllSnoc(Empty, ws, w, cfg.env);
    }
  }

  /**
   * Replaying the log reproduces the live user store: after any sequence of
   * deliveries from a fresh server, a startup whose unlink removed the user
   * store file rebuilds exactly the user store
   * the live handlers built, provided the JSON codec round-trips, no body is
   * `null`, and each request's two clock readings agree. The equality rests on
   * uuids being minted by a counter that restarts with the store.
   */
  lemma {:induction false} ReplayReproducesLiveState(ds: seq<Delivery>, cfg: Config)
    requires WebhookLog.RoundTrips(cfg.codec)
    requires forall i :: 0 <= i < |ds| ==> ds[i].request.body != JNull
    ensures var st := Serve(Fresh, ds, cfg);
      WebhookLog.GetWebhooks(st.log, cfg.codec).Success? && Startup(st.log, cfg, None) == Success(st.users)
    decreases |ds|
  {
    if ds != [] {
      var init := ds[..|ds| - 1];
      assert forall i :: 0 <= i < |init| ==> init[i] == ds[i];
      ReplayReproducesLiveState(init, cfg);
      ServeStep(Serve(Fresh, init, cfg), ds[|ds| - 1], cfg);
    }
  }

  /** A user as the `/users` endpoints send it: the row without its email, with the achievements. */
  datatype PublicUser = PublicUser(uuid: string, id: SqlVal, name: SqlVal, username: SqlVal, avatar: SqlVal,
                                   achievements: seq<Achievement>)

  /** `delete user.email`. */
  function Strip(v: UserView): PublicUser
  {
    PublicUser(UuidText(v.row.uuid), v.row.id, v.row.name, v.row.username, v.row.avatar, v.achievements)
  }

  /** Stripping forgets the email and nothing else. */
  lemma StripForgetsOnlyEmail(v1: UserView, v2: UserView)
    ensures Strip(v1) == Strip(v2) <==> v1.(row := v1.row.(email := SqlNull)) == v2.(row := v2.row.(email := SqlNull))
  {
    if Strip(v1) == Strip(v2) {
      UuidTextInjective(v1.row.uuid, v2.row.uuid);
    }
  }

  datatype UserReply = Found(user: PublicUser) | NotFound | ServerError

  /** `GET /users/:uuid`; `dbOk == false` is a failing query (500). `NotFound` is the 404. */
  function UserRoute(s: Store, uuid: string, dbOk: bool): (r: UserReply)
    ensures !dbOk <==> r.ServerError?
    ensures dbOk ==> (r.NotFound? <==> forall i :: 0 <= i < |s.users| ==> UuidText(s.users[i].uuid) != uuid)
    ensures r.Found? ==>
      && r.user.uuid == uuid
      && (exists i :: 0 <= i < |s.users| && Strip(UserView(s.users[i], r.user.achievements)) == r.user)
  {
    if !dbOk then ServerError
    else
      match GetUser(s, uuid)
      case None => NotFound
      case Some(v) =>
        assert Strip(UserView(v.row, v.achievements)) == Strip(v);
        Found(Strip(v))
  }

  /** A found user carries exactly that user's unlocks. */
  lemma UserRouteAchievements(s: Store, uuid: string)
    requires UserRoute(s, uuid, true).Found?
    ensures var u := UserRoute(s, uuid, true).user;
      exists k: nat :: UuidText(k) == uuid
        && forall a :: a in u.achievements <==> UnlockRow(k, a.name, a.timestamp) in s.unlocks
  {
    var v := GetUser(s, uuid).value;
    assert UuidText(v.row.uuid) == uuid;
  }

  datatype UsersReply = UserList(users: seq<PublicUser>) | ListError | ListNoReply

  /**
   * `GET /users`: every user, emails stripped. Stripping runs outside the
   * `try`, so a `null` entry would leave the request unanswered.
   */
  function UsersRoute(s: Store, dbOk: bool): (r: UsersReply)
    ensures !dbOk <==> r.ListError?
    ensures r.UserList? ==> |r.users| == |s.users|
  {
    if !dbOk then ListError
    else
      var vs := GetUsers(s);
      if exists i :: 0 <= i < |vs| && vs[i].None? then ListNoReply
      else UserList(seq(|vs|, i requires 0 <= i < |vs| => Strip(vs[i].value)))
  }

  /**
   * In a valid store the list answers, has one entry per row in table order,
   * and each entry is what the single-user endpoint answers for its uuid.
   */
  lemma ListMatchesSingle(s: Store)
    requires Valid(s)
    ensures var r := UsersRoute(s, true);
      && r.UserList? && |r.users| == |s.users|
      && forall i :: 0 <= i < |s.users| ==>
           UserRoute(s, UuidText(s.users[i].uuid), true) == Found(r.users[i])
  {
    GetUsersFindsEveryRow(s);
  }
}

=== FILE: user_store.dfy ===
/**
 * The user store: a `users` table (uuid primary key; id, username and email
 * unique), an `unlocks` table keyed by (user, name), and the per-(user,
 * achievement) metadata the checkers keep between events.
 *
 * Tables are sequences in creation order. The model assumes that a `SELECT`
 * without `ORDER BY` returns rows in that order; SQLite does not promise it.
 * A uuid is a serial number minted by the store, rendered as text by
 * `UuidText`.
 */
module UserStore {
  import opened Wrappers
  import opened Js
  import opened BodyParser
  import Decimal

  /** A value stored in or bound to an SQLite column. */
  datatype SqlVal = SqlNull | SqlInt(i: int) | SqlText(t: string)

  /**
   * Binding a JavaScript value to a statement parameter: `undefined` and
   * `null` become NULL, booleans 0/1. Arrays and objects are bound as NULL.
   */
  function Bind(v: JsVal): SqlVal
  {
    match v
    case Undefined => SqlNull
    case Val(j) =>
      match j
      case JNull => SqlNull
      case JBool(b) => SqlInt(if b then 1 else 0)
      case JNum(n) => SqlInt(n)
      case JStr(s) => SqlText(s)
      case _ => SqlNull
  }

  /** SQL `a = b`: never true when a side is NULL. */
  predicate SqlEq(a: SqlVal, b: SqlVal)
  {
    a != SqlNull && a == b
  }

  /** The text form of the `k`-th minted uuid. */
  function UuidText(k: nat): string
  {
    "uuid-" + Decimal.NatToString(k)
  }

  lemma UuidTextInjective(a: nat, b: nat)
    requires UuidText(a) == UuidText(b)
    ensures a == b
  {
    assert Decimal.NatToString(a) == UuidText(a)[5..] == UuidText(b)[5..] == Decimal.NatToString(b);
    Decimal.NatToStringInjective(a, b);
  }

  datatype UserRow = UserRow(uuid: nat, id: SqlVal, name: SqlVal, username: SqlVal, avatar: SqlVal, email: SqlVal)

  datatype UnlockRow = UnlockRow(user: nat, name: string, timestamp: int)

  /** An unlock as `getUser` reports it: the row without its user column. */
  datatype Achievement = Achievement(name: string, timestamp: int)

  datatype Store = Store(
    users: seq<UserRow>,
    unlocks: seq<UnlockRow>,
    metadata: map<(nat, string), Obj>,
    minted: nat)

  /** A freshly created (or deleted and recreated) store. */
  const Empty: Store := Store([], [], map[], 0)

  /** What a store operation leaves behind: the store, the caller's fragment object, and its result. */
  datatype Access<T> = Access(store: Store, user: Fragment, value: T)

  /** Two rows that the table's key and unique constraints allow side by side. */
  predicate Compatible(a: UserRow, b: UserRow)
  {
    a.uuid != b.uuid && !SqlEq(a.id, b.id) && !SqlEq(a.username, b.username) && !SqlEq(a.email, b.email)
  }

  /** The constraints of both tables; every uuid in use has been minted. */
  predicate Valid(s: Store)
  {
    && (forall i :: 0 <= i < |s.users| ==> s.users[i].uuid < s.minted)
    && (forall i :: 0 <= i < |s.unlocks| ==> s.unlocks[i].user < s.minted)
    && (forall k :: k in s.metadata ==> k.0 < s.minted)
    && (forall i, j :: 0 <= i < j < |s.users| ==> Compatible(s.users[i], s.users[j]))
    && (forall i, j :: 0 <= i < j < |s.unlocks| ==>
          s.unlocks[i].user != s.unlocks[j].user || s.unlocks[i].name != s.unlocks[j].name)
  }

  /** `uuid = ? OR id = ? OR username = ? OR email = ?` for one row. */
  predicate Matches(r: UserRow, f: Fragment)
  {
    || SqlEq(SqlText(UuidText(r.uuid)), Bind(Field(f, "uuid")))
    || SqlEq(r.id, Bind(Field(f, "id")))
    || SqlEq(r.username, Bind(Field(f, "username")))
    || SqlEq(r.email, Bind(Field(f, "email")))
  }

  /** Index of the first row at or after `from` that matches `f`. */
  function FirstMatch(users: seq<UserRow>, f: Fragment, from: nat): (r: Option<nat>)
    requires from <= |users|
    ensures r.None? <==> forall i :: from <= i < |users| ==> !Matches(users[i], f)
    ensures r.Some? ==>
      && from <= r.value < |users|
      && Matches(users[r.value], f)
      && forall i :: from <= i < r.value ==> !Matches(users[i], f)
    decreases |users| - from
  {
    if from == |users| then None
    else if Matches(users[from], f) then Some(from)
    else FirstMatch(users, f, from + 1)
  }

  /** `lookupUser`: the first row of the OR query, or null. */
  function LookupUser(users: seq<UserRow>, f: Fragment): (r: Option<UserRow>)
    ensures r.None? <==> forall i :: 0 <= i < |users| ==> !Matches(users[i], f)
    ensures r.Some? ==>
      exists i :: 0 <= i < |users| && users[i] == r.value && Matches(r.value, f)
        && forall j :: 0 <= j < i ==> !Matches(users[j], f)
  {
    match FirstMatch(users, f, 0)
    case None => None
    case Some(i) => Some(users[i])
  }

  /** The row `createOrUpdateUser` inserts for an unknown fragment. */
  function NewRow(k: nat, f: Fragment): UserRow
  {
    UserRow(k, Bind(Field(f, "id")), Bind(Field(f, "name")), Bind(Field(f, "username")),
            Bind(Field(f, "avatar")), Bind(Field(f, "email")))
  }

  /**
   * `createOrUpdateUser`. A matching row is written back unchanged (its own
   * values override the fragment's), so the store does not change; otherwise
   * a row with a fresh uuid is appended and the uuid is also set on the
   * caller's fragment object.
   */
  function CreateOrUpdateUser(s: Store, f: Fragment): (r: Access<nat>)
    ensures r.user - {"uuid"} == f - {"uuid"}
    ensures LookupUser(s.users, f).Some? ==>
      r.store == s && r.user == f && r.value == LookupUser(s.users, f).value.uuid
    ensures LookupUser(s.users, f).None? ==>
      && r.store == s.(users := s.users + [NewRow(s.minted, f)], minted := s.minted + 1)
      && r.user == f["uuid" := Val(JStr(UuidText(s.minted)))]
      && r.value == s.minted
  {
    match FirstMatch(s.users, f, 0)
    case Some(i) => Access(s, f, s.users[i].uuid)
    case None =>
      Access(s.(users := s.users + [NewRow(s.minted, f)], minted := s.minted + 1),
             f["uuid" := Val(JStr(UuidText(s.minted)))],
             s.minted)
  }

  /** The row a resolved uuid refers to is in the table and matches the caller's fragment. */
  lemma CreateOrUpdateFindsRow(s: Store, f: Fragment)
    ensures var r := CreateOrUpdateUser(s, f);
      exists i :: 0 <= i < |r.store.users| && r.store.users[i].uuid == r.value && Matches(r.store.users[i], r.user)
  {
    var r := CreateOrUpdateUser(s, f);
    match FirstMatch(s.users, f, 0)
    case Some(i) =>
      assert r.store.users[i].uuid == r.value && Matches(r.store.users[i], r.user);
    case None =>
      var k := |s.users|;
      assert r.store.users[k].uuid == r.value;
      assert Bind(Field(r.user, "uuid")) == SqlText(UuidText(s.minted));
  }

  /** No two rows ever share a uuid, or a non-null id, username or email. */
  lemma CreateOrUpdatePreservesValid(s: Store, f: Fragment)
    requires Valid(s)
    ensures Valid(CreateOrUpdateUser(s, f).store)
  {
    if LookupUser(s.users, f).None? {
      var row := NewRow(s.minted, f);
      var users := s.users + [row];
      forall i, j | 0 <= i < j < |users|
        ensures Compatible(users[i], users[j])
      {
        if j == |s.users| {
          assert users[i] == s.users[i] && !Matches(s.users[i], f);
        } else {
          assert users[i] == s.users[i] && users[j] == s.users[j];
        }
      }
    }
  }

  /** Resolving `f` in `s` finds user `u` and changes nothing. */
  predicate Resolved(s: Store, f: Fragment, u: nat)
  {
    CreateOrUpdateUser(s, f) == Access(s, f, u)
  }

  /** A resolved uuid has been minted. */
  lemma ResolvedIsMinted(s: Store, f: Fragment)
    requires Valid(s)
    ensures CreateOrUpdateUser(s, f).value < CreateOrUpdateUser(s, f).store.minted
  {
  }

  /** Resolution reads only the users table and the uuid supply. */
  lemma ResolveReadsUsersOnly(s1: Store, s2: Store, f: Fragment)
    requires s1.users == s2.users && s1.minted == s2.minted
    ensures var a1, a2 := CreateOrUpdateUser(s1, f), CreateOrUpdateUser(s2, f);
      && a1.value == a2.value && a1.user == a2.user
      && a1.store.users == a2.store.users && a1.store.minted == a2.store.minted
      && (a1.store == s1 <==> a2.store == s2)
  {
  }

  /**
   * Resolving the same fragment object again (after the first call set its
   * uuid) finds the same user and changes nothing.
   */
  lemma CreateOrUpdateIdempotent(s: Store, f: Fragment)
    requires Valid(s)
    ensures var a := CreateOrUpdateUser(s, f);
      var b := CreateOrUpdateUser(a.store, a.user);
      b.store == a.store && b.user == a.user && b.value == a.value
  {
    var a := CreateOrUpdateUser(s, f);
    if LookupUser(s.users, f).None? {
      var users := a.store.users;
      var k := |s.users|;
      forall i | 0 <= i < k
        ensures !Matches(users[i], a.user)
      {
        assert users[i] == s.users[i] && !Matches(s.users[i], f);
        if SqlEq(SqlText(UuidText(users[i].uuid)), Bind(Field(a.user, "uuid"))) {
          UuidTextInjective(users[i].uuid, s.minted);
        }
      }
      assert Matches(users[k], a.user);
    }
  }

  /** A fragment naming a non-null id, username or email. */
  predicate Identified(f: Fragment)
  {
    Bind(Field(f, "id")) != SqlNull || Bind(Field(f, "username")) != SqlNull || Bind(Field(f, "email")) != SqlNull
  }

  /**
   * Resolving an identified fragment again, from a fresh copy (as every
   * `parseUser` call makes) as well as from the same object, finds the user
   * the first resolution found or created, and changes nothing.
   */
  lemma ResolveFreshCopy(s: Store, f: Fragment)
    requires Identified(f)
    ensures var a := CreateOrUpdateUser(s, f);
      Resolved(a.store, f, a.value)
  {
    var a := CreateOrUpdateUser(s, f);
    if LookupUser(s.users, f).None? {
      var users := a.store.users;
      var k := |s.users|;
      assert forall i :: 0 <= i < k ==> users[i] == s.users[i];
      assert Matches(users[k], f);
    }
  }

  /**
   * A fresh copy of a fragment with no uuid, id, username or email matches
   * no row, so every resolution of such an actor adds another row.
   */
  lemma AnonymousActorDuplicates(s: Store, f: Fragment)
    requires !Identified(f)
    requires Bind(Field(f, "uuid")) == SqlNull
    ensures var a := CreateOrUpdateUser(s, f);
      |a.store.users| == |s.users| + 1 && |CreateOrUpdateUser(a.store, f).store.users| == |s.users| + 2
  {
  }

  /**
   * Rows and unlocks are only ever appended, so a fragment that already finds
   * a row keeps resolving to that user, and keeps the unlocks it had.
   */
  lemma ResolveAfterGrowth(s: Store, t: Store, f: Fragment, name: string)
    requires LookupUser(s.users, f).Some?
    requires s.users <= t.users && s.unlocks <= t.unlocks
    ensures Resolved(t, f, CreateOrUpdateUser(s, f).value)
    ensures UserHasAchievement(s, f, name).value ==> UserHasAchievement(t, f, name).value
  {
    var i := FirstMatch(s.users, f, 0).value;
    assert forall j :: 0 <= j < |s.users| ==> t.users[j] == s.users[j];
    var k := FirstMatch(t.users, f, 0);
    assert k.Some? && k.value <= i;
    assert k.value == i;
    assert forall j :: 0 <= j < |s.unlocks| ==> t.unlocks[j] == s.unlocks[j];
  }

  /** Whether the unlocks table holds the pair (user, name). */
  predicate Unlocked(unlocks: seq<UnlockRow>, user: nat, name: string)
  {
    exists k :: 0 <= k < |unlocks| && unlocks[k].user == user && unlocks[k].name == name
  }

  /** `userHasAchievement`: resolves (and possibly creates) the user, then looks for the pair. */
  function UserHasAchievement(s: Store, f: Fragment, name: string): (r: Access<bool>)
    ensures var a := CreateOrUpdateUser(s, f);
      r.store == a.store && r.user == a.user
      && (r.value <==> exists k :: 0 <= k < |s.unlocks| && s.unlocks[k] == UnlockRow(a.value, name, s.unlocks[k].timestamp))
  {
    var a := CreateOrUpdateUser(s, f);
    Access(a.store, a.user, Unlocked(a.store.unlocks, a.value, name))
  }

  /**
   * `unlockAchievement`: `INSERT OR IGNORE` into the unlocks table, whose
   * primary key is (user, name). Users are resolved first.
   */
  function UnlockAchievement(s: Store, f: Fragment, name: string, timestamp: int): (r: Access<nat>)
    ensures var a := CreateOrUpdateUser(s, f);
      && r.value == a.value && r.user == a.user
      && r.store.users == a.store.users && r.store.metadata == s.metadata && r.store.minted == a.store.minted
      && Unlocked(r.store.unlocks, r.value, name)
      && (Unlocked(s.unlocks, a.value, name) ==> r.store.unlocks == s.unlocks)
      && (!Unlocked(s.unlocks, a.value, name) ==> r.store.unlocks == s.unlocks + [UnlockRow(a.value, name, timestamp)])
  {
    var a := CreateOrUpdateUser(s, f);
    if Unlocked(a.store.unlocks, a.value, name) then
      Access(a.store, a.user, a.value)
    else
      var row := UnlockRow(a.value, name, timestamp);
      assert (a.store.unlocks + [row])[|a.store.unlocks|] == row;
      Access(a.store.(unlocks := a.store.unlocks + [row]), a.user, a.value)
  }

  lemma UnlockPreservesValid(s: Store, f: Fragment, name: string, timestamp: int)
    requires Valid(s)
    ensures Valid(UnlockAchievement(s, f, name, timestamp).store)
  {
    var a := CreateOrUpdateUser(s, f);
    CreateOrUpdatePreservesValid(s, f);
    ResolvedIsMinted(s, f);
    if !Unlocked(a.store.unlocks, a.value, name) {
      AppendUnlockKeepsValid(a.store, UnlockRow(a.value, name, timestamp));
    }
  }

  /** A new (user, name) row for a minted user keeps the store's constraints. */
  lemma AppendUnlockKeepsValid(t: Store, row: UnlockRow)
    requires Valid(t) && row.user < t.minted && !Unlocked(t.unlocks, row.user, row.name)
    ensures Valid(t.(unlocks := t.unlocks + [row]))
  {
    var u := t.unlocks + [row];
    assert forall i :: 0 <= i < |t.unlocks| ==> u[i] == t.unlocks[i];
    assert u[|t.unlocks|] == row;
  }

  /**
   * A second unlock of the same pair is a no-op: the store, and so the first
   * unlock's timestamp, stay as they were.
   */
  lemma UnlockIdempotent(s: Store, f: Fragment, name: string, t1: int, t2: int)
    requires Valid(s)
    ensures var a := UnlockAchievement(s, f, name, t1);
      var b := UnlockAchievement(a.store, a.user, name, t2);
      b.store == a.store && b.value == a.value
  {
    var c := CreateOrUpdateUser(s, f);
    CreateOrUpdateIdempotent(s, f);
    CreateOrUpdatePreservesValid(s, f);
    var a := UnlockAchievement(s, f, name, t1);
    var c2 := CreateOrUpdateUser(a.store, a.user);
    assert a.store.users == c.store.users && a.store.minted == c.store.minted;
    assert CreateOrUpdateUser(a.store, a.user).store == a.store by {
      assert LookupUser(a.store.users, a.user) == LookupUser(c.store.users, c.user);
    }
  }

  /** After an unlock, the achievement is reported as unlocked for the same fragment object. */
  lemma UnlockThenHas(s: Store, f: Fragment, name: string, timestamp: int)
    requires Valid(s)
    ensures var a := UnlockAchievement(s, f, name, timestamp);
      UserHasAchievement(a.store, a.user, name).value
  {
    var c := CreateOrUpdateUser(s, f);
    CreateOrUpdateIdempotent(s, f);
    var a := UnlockAchievement(s, f, name, timestamp);
    assert LookupUser(a.store.users, a.user) == LookupUser(c.store.users, c.user);
  }

  /**
   * After an unlock, a fresh copy of an identified actor's fragment finds the
   * actor and reports the achievement as unlocked.
   */
  lemma UnlockThenHasFreshCopy(s: Store, f: Fragment, name: string, timestamp: int)
    requires Identified(f)
    ensures var a := UnlockAchievement(s, f, name, timestamp);
      LookupUser(a.store.users, f).Some? && UserHasAchievement(a.store, f, name).value
  {
    ResolveFreshCopy(s, f);
  }

  /** The unlock rows of one user, in table order, without the user column. */
  function AchievementsOf(unlocks: seq<UnlockRow>, user: nat): (r: seq<Achievement>)
    ensures |r| <= |unlocks|
    ensures forall a :: a in r <==> UnlockRow(user, a.name, a.timestamp) in unlocks
    ensures forall a :: multiset(r)[a] == multiset(unlocks)[UnlockRow(user, a.name, a.timestamp)]
  {
    if unlocks == [] then []
    else
      var rest := AchievementsOf(unlocks[1..], user);
      assert forall u :: u in unlocks <==> u == unlocks[0] || u in unlocks[1..];
      assert unlocks == [unlocks[0]] + unlocks[1..];
      if unlocks[0].user == user then [Achievement(unlocks[0].name, unlocks[0].timestamp)] + rest else rest
  }

  /** A user as `getUser` returns it: the stored row with its achievements. */
  datatype UserView = UserView(row: UserRow, achievements: seq<Achievement>)

  /** `getUser(uuid)`: looks the uuid up with the same OR query, then reads the unlocks. */
  function GetUser(s: Store, uuid: string): (r: Option<UserView>)
    ensures r.None? <==> forall i :: 0 <= i < |s.users| ==> UuidText(s.users[i].uuid) != uuid
    ensures r.Some? ==>
      && r.value.row in s.users
      && UuidText(r.value.row.uuid) == uuid
      && forall a :: a in r.value.achievements <==> UnlockRow(r.value.row.uuid, a.name, a.timestamp) in s.unlocks
  {
    var key: Fragment := map["uuid" := Val(JStr(uuid))];
    assert forall i :: 0 <= i < |s.users| ==> (Matches(s.users[i], key) <==> UuidText(s.users[i].uuid) == uuid);
    match FirstMatch(s.users, key, 0)
    case None => None
    case Some(i) => Some(UserView(s.users[i], AchievementsOf(s.unlocks, s.users[i].uuid)))
  }

  /** `getUsers`: `getUser` of every uuid of the users table, in table order. */
  function GetUsers(s: Store): (r: seq<Option<UserView>>)
    ensures |r| == |s.users|
    ensures forall i :: 0 <= i < |r| ==> r[i] == GetUser(s, UuidText(s.users[i].uuid))
  {
    seq(|s.users|, i requires 0 <= i < |s.users| => GetUser(s, UuidText(s.users[i].uuid)))
  }

  /** In a valid store every listed user is found, as the row it was listed for. */
  lemma GetUsersFindsEveryRow(s: Store)
    requires Valid(s)
    ensures forall i :: 0 <= i < |s.users| ==> GetUsers(s)[i].Some? && GetUsers(s)[i].value.row == s.users[i]
  {
    forall i | 0 <= i < |s.users|
      ensures GetUsers(s)[i].Some? && GetUsers(s)[i].value.row == s.users[i]
    {
      var v := GetUser(s, UuidText(s.users[i].uuid));
      assert v.Some?;
      var j :| 0 <= j < |s.users| && s.users[j] == v.value.row;
      UuidTextInjective(s.users[j].uuid, s.users[i].uuid);
    }
  }

  /** The metadata of a (user, achievement) pair: an empty record when none is stored. */
  function MetadataOf(s: Store, user: nat, name: string): Obj
  {
    if (user, name) in s.metadata then s.metadata[(user, name)] else map[]
  }

  /** `t` differs from `s` at most in the record of `(user, name)`. */
  ghost predicate OnlyMetadataOf(s: Store, t: Store, user: nat, name: string)
  {
    && t.users == s.users && t.minted == s.minted && t.unlocks == s.unlocks
    && forall k :: k != (user, name) ==>
         (k in t.metadata <==> k in s.metadata) && (k in s.metadata ==> t.metadata[k] == s.metadata[k])
  }

  /** `getMetadata`: resolves the user, then reads its record for the achievement. */
  function GetMetadata(s: Store, f: Fragment, name: string): (r: Access<Obj>)
    ensures var a := CreateOrUpdateUser(s, f);
      r.store == a.store && r.user == a.user
      && ((a.value, name) !in s.metadata ==> r.value == map[])
      && ((a.value, name) in s.metadata ==> r.value == s.metadata[(a.value, name)])
  {
    var a := CreateOrUpdateUser(s, f);
    Access(a.store, a.user, MetadataOf(a.store, a.value, name))
  }

  /** `setMetadata`: overwrites the user's record for the achievement; nothing else changes. */
  function SetMetadata(s: Store, f: Fragment, name: string, value: Obj): (r: Access<nat>)
    ensures var a := CreateOrUpdateUser(s, f);
      && r.value == a.value && r.user == a.user
      && r.store.users == a.store.users && r.store.minted == a.store.minted && r.store.unlocks == s.unlocks
      && MetadataOf(r.store, a.value, name) == value
      && forall k :: k != (a.value, name) ==>
           (k in r.store.metadata <==> k in s.metadata) && (k in s.metadata ==> r.store.metadata[k] == s.metadata[k])
  {
    var a := CreateOrUpdateUser(s, f);
    Access(a.store.(metadata := a.store.metadata[(a.value, name) := value]), a.user, a.value)
  }

  /** `clearMetadata`: deletes the user's record for the achievement; nothing else changes. */
  function ClearMetadata(s: Store, f: Fragment, name: string): (r: Access<nat>)
    ensures var a := CreateOrUpdateUser(s, f);
      && r.value == a.value && r.user == a.user
      && r.store.users == a.store.users && r.store.minted == a.store.minted && r.store.unlocks == s.unlocks
      && (a.value, name) !in r.store.metadata
      && forall k :: k != (a.value, name) ==>
           (k in r.store.metadata <==> k in s.metadata) && (k in s.metadata ==> r.store.metadata[k] == s.metadata[k])
  {
    var a := CreateOrUpdateUser(s, f);
    Access(a.store.(metadata := a.store.metadata - {(a.value, name)}), a.user, a.value)
  }

  /** On an actor that is already resolved, the metadata operations touch the metadata alone. */
  lemma MetadataOnResolved(s: Store, f: Fragment, u: nat, name: string, value: Obj)
    requires Resolved(s, f, u)
    ensures GetMetadata(s, f, name) == Access(s, f, MetadataOf(s, u, name))
    ensures SetMetadata(s, f, name, value) == Access(s.(metadata := s.metadata[(u, name) := value]), f, u)
    ensures ClearMetadata(s, f, name) == Access(s.(metadata := s.metadata - {(u, name)}), f, u)
  {
  }

  /** Reading back what was set, through the same fragment object, gives the value set. */
  lemma SetThenGet(s: Store, f: Fragment, name: string, value: Obj)
    requires Valid(s)
    ensures var a := SetMetadata(s, f, name, value);
      GetMetadata(a.store, a.user, name).value == value
  {
    var c := CreateOrUpdateUser(s, f);
    CreateOrUpdateIdempotent(s, f);
    var a := SetMetadata(s, f, name, value);
    assert LookupUser(a.store.users, a.user) == LookupUser(c.store.users, c.user);
  }

  /** After a clear, reading through the same fragment object gives an empty record. */
  lemma ClearThenGet(s: Store, f: Fragment, name: string)
    requires Valid(s)
    ensures var a := ClearMetadata(s, f, name);
      GetMetadata(a.store, a.user, name).value == map[]
  {
    var c := CreateOrUpdateUser(s, f);
    CreateOrUpdateIdempotent(s, f);
    var a := ClearMetadata(s, f, name);
    assert LookupUser(a.store.users, a.user) == LookupUser(c.store.users, c.user);
  }

  lemma MetadataPreservesValid(s: Store, f: Fragment, name: string, value: Obj)
    requires Valid(s)
    ensures Valid(SetMetadata(s, f, name, value).store)
    ensures Valid(ClearMetadata(s, f, name).store)
    ensures Valid(GetMetadata(s, f, name).store)
    ensures Valid(UserHasAchievement(s, f, name).store)
  {
    CreateOrUpdatePreservesValid(s, f);
    ResolvedIsMinted(s, f);
  }

  /** Changing only metadata keeps a store valid, as long as every key names a minted uuid. */
  lemma MetadataChangeKeepsValid(s: Store, t: Store)
    requires Valid(s)
    requires t.users == s.users && t.unlocks == s.unlocks && t.minted == s.minted
    requires forall k :: k in t.metadata ==> k.0 < t.minted
    ensures Valid(t)
  {
  }
}

=== FILE: utc_date.dfy ===
/**
 * The parts of JavaScript's `Date` the checkers use: `new Date(value)`,
 * `getUTCHours()`, and the `YYYY-MM-DD` bucket built from
 * `getUTCFullYear()`, `getUTCMonth()` (0-based) and `getUTCDate()`.
 *
 * A time value is an integer number of milliseconds since
 * 1970-01-01T00:00:00Z; the calendar is the proleptic Gregorian one.
 * Parsing of date strings is a parameter (`parseDate`).
 */
module UtcDate {
  import opened Wrappers
  import opened Js
  import Decimal

  const MsPerHour: int := 3_600_000
  const MsPerDay: int := 86_400_000
  /** The largest magnitude of a valid time value (TimeClip). */
  const MaxTime: int := 8_640_000_000_000_000

  /** TimeClip: out-of-range time values are invalid dates. */
  function Clip(t: int): Option<int>
  {
    if -MaxTime <= t <= MaxTime then Some(t) else None
  }

  /** A date string read by `parseDate`, then clipped. */
  function ParseClip(s: string, parseDate: string -> Option<int>): Option<int>
  {
    match parseDate(s)
    case Some(t) => Clip(t)
    case None => None
  }

  /**
   * `new Date(v)`: `None` is an Invalid Date. Arrays and objects are first
   * turned into their strings, which are then parsed.
   */
  function ToDate(v: JsVal, parseDate: string -> Option<int>): (r: Option<int>)
    ensures v == Undefined ==> r == None
    ensures v == Val(JNull) ==> r == Some(0)
    ensures v.Val? && (v.json.JStr? || v.json.JArr? || v.json.JObj?) ==> r == ParseClip(Text(v.json), parseDate)
    ensures r.Some? ==> -MaxTime <= r.value <= MaxTime
  {
    match v
    case Undefined => None
    case Val(j) =>
      match j
      case JNull => Some(0)
      case JBool(b) => Some(if b then 1 else 0)
      case JNum(n) => Clip(n)
      case JStr(s) => ParseClip(s, parseDate)
      case JArr(items) => ParseClip(JoinText(items), parseDate)
      case JObj(_) => ParseClip("[object Object]", parseDate)
  }

  /** A one-element array holding a date string is the same date as the string. */
  lemma SingletonArrayDate(s: string, parseDate: string -> Option<int>)
    ensures ToDate(Val(JArr([JStr(s)])), parseDate) == ToDate(Val(JStr(s)), parseDate)
  {
  }

  /** The day number of a time value: whole days since 1970-01-01 (floor). */
  function DayOf(t: int): int
  {
    t / MsPerDay
  }

  /** `getUTCHours()` of a valid time value. */
  function HourOf(t: int): (h: int)
    ensures 0 <= h < 24
    ensures DayOf(t) * MsPerDay + h * MsPerHour <= t < DayOf(t) * MsPerDay + (h + 1) * MsPerHour
  {
    (t % MsPerDay) / MsPerHour
  }

  predicate IsLeap(y: int)
  {
    y % 4 == 0 && (y % 100 != 0 || y % 400 == 0)
  }

  function YearLength(y: int): int
  {
    if IsLeap(y) then 366 else 365
  }

  /** Days from 1970-01-01 to January 1st of year `y` (negative before 1970). */
  function DaysBeforeYear(y: int): int
    decreases if y < 1970 then 1970 - y else y - 1970
  {
    if y == 1970 then 0
    else if y > 1970 then DaysBeforeYear(y - 1) + YearLength(y - 1)
    else DaysBeforeYear(y + 1) - YearLength(y)
  }

  lemma DaysBeforeNextYear(y: int)
    ensures DaysBeforeYear(y + 1) == DaysBeforeYear(y) + YearLength(y)
  {
  }

  /**
   * Splits "day `z` counted from January 1st of year `y`" into a year and a
   * 0-based day of that year.
   */
  function SplitYear(z: int, y: int): (r: (int, int))
    ensures 0 <= r.1 < YearLength(r.0)
    ensures DaysBeforeYear(r.0) + r.1 == DaysBeforeYear(y) + z
    decreases z < 0, if z < 0 then -z else z
  {
    if z < 0 then
      DaysBeforeNextYear(y - 1);
      SplitYear(z + YearLength(y - 1), y - 1)
    else if z < YearLength(y) then
      (y, z)
    else
      DaysBeforeNextYear(y);
      SplitYear(z - YearLength(y), y + 1)
  }

  /** Days of year `y` before 0-based month `m` (`m == 12` gives the year length). */
  function DaysBeforeMonth(y: int, m: nat): (d: int)
    requires m <= 12
    ensures m == 12 ==> d == YearLength(y)
  {
    [0, 31, 59, 90, 120, 151, 181, 212, 243, 273, 304, 334, 365][m]
      + (if m >= 2 && IsLeap(y) then 1 else 0)
  }

  /** The number of days in 0-based month `m` of year `y`. */
  function MonthLength(y: int, m: nat): (n: int)
    requires m < 12
    ensures 28 <= n <= 31
    ensures n == 29 <==> m == 1 && IsLeap(y)
  {
    DaysBeforeMonth(y, m + 1) - DaysBeforeMonth(y, m)
  }

  /**
   * Splits a 0-based day of year `y`, known to lie in month `m` or later,
   * into a 0-based month and a 1-based day of that month.
   */
  function SplitMonth(y: int, doy: int, m: nat): (r: (nat, int))
    requires m < 12
    requires DaysBeforeMonth(y, m) <= doy < YearLength(y)
    ensures m <= r.0 < 12
    ensures 1 <= r.1 <= MonthLength(y, r.0)
    ensures DaysBeforeMonth(y, r.0) + r.1 - 1 == doy
    decreases 12 - m
  {
    if doy < DaysBeforeMonth(y, m + 1) then (m, doy - DaysBeforeMonth(y, m) + 1)
    else SplitMonth(y, doy, m + 1)
  }

  /** The UTC calendar date of a day number: year, 0-based month, 1-based day. */
  datatype CivilDate = CivilDate(year: int, month: nat, day: int)

  /** `c` is the calendar date of day number `z`: a real month and a day within that month's length. */
  predicate IsDateOf(c: CivilDate, z: int)
  {
    && 0 <= c.month < 12 && 1 <= c.day <= MonthLength(c.year, c.month)
    && DaysBeforeYear(c.year) + DaysBeforeMonth(c.year, c.month) + c.day - 1 == z
  }

  function CivilOfDay(z: int): (c: CivilDate)
    ensures 0 <= c.month < 12 && 1 <= c.day <= 31
    ensures c.day <= MonthLength(c.year, c.month)
    ensures DaysBeforeYear(c.year) + DaysBeforeMonth(c.year, c.month) + c.day - 1 == z
  {
    var (y, doy) := SplitYear(z, 1970);
    var (m, d) := SplitMonth(y, doy, 0);
    CivilDate(y, m, d)
  }

  /** The per-day bucket label: `${year}-${month}-${day}` with 2-digit padding. */
  function Label(c: CivilDate): string
    requires 0 <= c.month < 12 && 1 <= c.day <= 31
  {
    Decimal.IntToString(c.year) + Tail(c)
  }

  /** The month and day part of a label: "-MM-DD". */
  function Tail(c: CivilDate): (t: string)
    requires 0 <= c.month < 12 && 1 <= c.day <= 31
    ensures |t| == 6
  {
    "-" + Decimal.Pad2(c.month) + "-" + Decimal.Pad2(c.day)
  }

  /**
   * The bucket key of `new Date(...)`: an Invalid Date has NaN for every
   * field, which renders as "NaN-NaN-NaN".
   */
  function DateKey(t: Option<int>): string
  {
    match t
    case None => "NaN-NaN-NaN"
    case Some(ms) => Label(CivilOfDay(DayOf(ms)))
  }

  /**
   * An invalid date, and only an invalid date, gets "NaN-NaN-NaN"; a valid
   * one gets the label of its UTC calendar date.
   */
  lemma DateKeyIsCalendarDate(t: Option<int>)
    ensures t.None? <==> DateKey(t) == "NaN-NaN-NaN"
    ensures t.Some? ==> exists c :: IsDateOf(c, DayOf(t.value)) && DateKey(t) == Label(c)
  {
    if t.Some? {
      DateKeyInvalidDistinct(t.value);
      var c := CivilOfDay(DayOf(t.value));
      assert IsDateOf(c, DayOf(t.value));
    }
  }

  /** Each year starts after every earlier year has ended. */
  lemma {:induction false} YearsInOrder(a: int, b: int)
    requires a < b
    ensures DaysBeforeYear(a) + YearLength(a) <= DaysBeforeYear(b)
    decreases b - a
  {
    DaysBeforeNextYear(a);
    if a + 1 < b {
      YearsInOrder(a + 1, b);
    }
  }

  /** Months start in calendar order. */
  lemma MonthsInOrder(y: int, m1: nat, m2: nat)
    requires m1 <= m2 <= 12
    ensures DaysBeforeMonth(y, m1) <= DaysBeforeMonth(y, m2)
  {
  }

  /** A day counted from two year starts, within each year, names the same year. */
  lemma YearUnique(a: int, i: int, b: int, j: int)
    requires 0 <= i < YearLength(a) && 0 <= j < YearLength(b)
    requires DaysBeforeYear(a) + i == DaysBeforeYear(b) + j
    ensures a == b
  {
    if a < b {
      YearsInOrder(a, b);
    } else if b < a {
      YearsInOrder(b, a);
    }
  }

  /** A day of the year counted from two month starts, within each month, names the same month. */
  lemma MonthUnique(y: int, m1: nat, d1: int, m2: nat, d2: int)
    requires m1 < 12 && 1 <= d1 <= MonthLength(y, m1)
    requires m2 < 12 && 1 <= d2 <= MonthLength(y, m2)
    requires DaysBeforeMonth(y, m1) + d1 == DaysBeforeMonth(y, m2) + d2
    ensures m1 == m2
  {
    if m1 < m2 {
      MonthsInOrder(y, m1 + 1, m2);
    } else if m2 < m1 {
      MonthsInOrder(y, m2 + 1, m1);
    }
  }

  /** A day number has exactly one calendar date: the one `CivilOfDay` gives. */
  lemma DateUnique(c: CivilDate, z: int)
    requires IsDateOf(c, z)
    ensures c == CivilOfDay(z)
  {
    var d := CivilOfDay(z);
    MonthsInOrder(c.year, c.month + 1, 12);
    MonthsInOrder(d.year, d.month + 1, 12);
    YearUnique(c.year, DaysBeforeMonth(c.year, c.month) + c.day - 1, d.year, DaysBeforeMonth(d.year, d.month) + d.day - 1);
    MonthUnique(c.year, c.month, c.day, d.month, d.day);
  }

  /** A calendar date determines its day number. */
  lemma CivilOfDayInjective(a: int, b: int)
    requires CivilOfDay(a) == CivilOfDay(b)
    ensures a == b
  {
  }

  /** Two concatenations with equally long first parts agree part by part. */
  lemma SplitEqual(x1: string, x2: string, y1: string, y2: string)
    requires x1 + x2 == y1 + y2 && |x1| == |y1|
    ensures x1 == y1 && x2 == y2
  {
    assert x1 == (x1 + x2)[..|x1|] && y1 == (y1 + y2)[..|y1|];
    assert x2 == (x1 + x2)[|x1|..] && y2 == (y1 + y2)[|y1|..];
  }

  /** Labels are injective on calendar dates. */
  lemma LabelInjective(c: CivilDate, d: CivilDate)
    requires 0 <= c.month < 12 && 1 <= c.day <= 31
    requires 0 <= d.month < 12 && 1 <= d.day <= 31
    requires Label(c) == Label(d)
    ensures c == d
  {
    var yc, yd := Decimal.IntToString(c.year), Decimal.IntToString(d.year);
    SplitEqual(yc, Tail(c), yd, Tail(d));
    Decimal.IntToStringInjective(c.year, d.year);
    var mc, md := Decimal.Pad2(c.month), Decimal.Pad2(d.month);
    assert Tail(c) == ("-" + mc) + ("-" + Decimal.Pad2(c.day));
    assert Tail(d) == ("-" + md) + ("-" + Decimal.Pad2(d.day));
    SplitEqual("-" + mc, "-" + Decimal.Pad2(c.day), "-" + md, "-" + Decimal.Pad2(d.day));
    assert mc == ("-" + mc)[1..] && md == ("-" + md)[1..];
    Decimal.Pad2Injective(c.month, d.month);
    assert Decimal.Pad2(c.day) == ("-" + Decimal.Pad2(c.day))[1..];
    assert Decimal.Pad2(d.day) == ("-" + Decimal.Pad2(d.day))[1..];
    Decimal.Pad2Injective(c.day, d.day);
  }

  /** Two valid time values share a bucket exactly when they fall on the same UTC day. */
  lemma DateKeySameDay(a: int, b: int)
    ensures DateKey(Some(a)) == DateKey(Some(b)) <==> DayOf(a) == DayOf(b)
  {
    if DateKey(Some(a)) == DateKey(Some(b)) {
      LabelInjective(CivilOfDay(DayOf(a)), CivilOfDay(DayOf(b)));
      CivilOfDayInjective(DayOf(a), DayOf(b));
    }
  }

  /** No valid date's bucket is the invalid dates' bucket "NaN-NaN-NaN". */
  lemma DateKeyInvalidDistinct(a: int)
    ensures DateKey(Some(a)) != DateKey(None)
  {
    var c := CivilOfDay(DayOf(a));
    assert DateKey(Some(a))[0] == Decimal.IntToString(c.year)[0];
  }

  /** The epoch falls in bucket "1970-00-01": months are 0-based. */
  lemma EpochKey()
    ensures DateKey(Some(0)) == "1970-00-01"
  {
    DateUnique(CivilDate(1970, 0, 1), 0);
    assert Decimal.NatToString(1) == "1";
    assert Decimal.NatToString(19) == "19";
    assert Decimal.NatToString(197) == "197";
    assert Decimal.NatToString(1970) == "1970";
    assert Tail(CivilDate(1970, 0, 1)) == "-00-01";
  }
}

=== FILE: webhook_log.dfy ===
/**
 * The webhook log: every received body, as JSON text, with an md5 name and
 * the ingest time. The table has no key, so nothing is ever de-duplicated.
 */
module WebhookLog {
  import opened Wrappers
  import opened Js

  /** A row of the `webhooks` table. */
  datatype Row = Row(hash: string, created: int, body: string)

  /** A loaded row: the body parsed back. */
  datatype Webhook = Webhook(hash: string, created: int, body: Json)

  /** The answer of `getWebhookInfo`. */
  datatype Info = Info(webhooks: nat, latest: int)

  /** `JSON.stringify`, `JSON.parse` (`None` where it throws) and the md5 hex digest. */
  datatype Codec = Codec(stringify: Json -> string, parse: string -> Option<Json>, md5: string -> string)

  /** JSON text written by `stringify` parses back to the value written. */
  ghost predicate RoundTrips(c: Codec)
  {
    forall j :: c.parse(c.stringify(j)) == Some(j)
  }

  type Log = seq<Row>

  /** `store(webhook, ingestTimestamp)`: `INSERT OR IGNORE` into a table without a key always appends. */
  function Store(log: Log, c: Codec, webhook: Json, ingest: int): (r: Log)
    ensures |r| == |log| + 1 && r[..|log|] == log
    ensures r[|log|] == Row(c.md5(c.stringify(webhook)), ingest, c.stringify(webhook))
  {
    var body := c.stringify(webhook);
    log + [Row(c.md5(body), ingest, body)]
  }

  /** `getWebhooks`: all rows in table order, bodies parsed; one body that does not parse fails the whole load. */
  function GetWebhooks(log: Log, c: Codec): (r: Result<seq<Webhook>, Error>)
    ensures r.Failure? <==> exists i :: 0 <= i < |log| && c.parse(log[i].body).None?
    ensures r.Failure? ==> r.error == SyntaxError
    ensures r.Success? ==>
      && |r.value| == |log|
      && forall i :: 0 <= i < |log| ==>
           r.value[i] == Webhook(log[i].hash, log[i].created, c.parse(log[i].body).value)
    decreases |log|
  {
    if log == [] then Success([])
    else
      match c.parse(log[0].body)
      case None => Failure(SyntaxError)
      case Some(j) =>
        var rest := GetWebhooks(log[1..], c);
        assert forall i :: 1 <= i < |log| ==> log[i] == log[1..][i - 1];
        if rest.Failure? then rest
        else Success([Webhook(log[0].hash, log[0].created, j)] + rest.value)
  }

  /** The latest ingest time of a non-empty log. */
  function Latest(log: Log): (r: int)
    requires log != []
    ensures exists i :: 0 <= i < |log| && log[i].created == r
    ensures forall i :: 0 <= i < |log| ==> log[i].created <= r
    decreases |log|
  {
    if |log| == 1 then log[0].created
    else
      var rest := Latest(log[1..]);
      assert forall i :: 1 <= i < |log| ==> log[i] == log[1..][i - 1];
      if log[0].created >= rest then log[0].created else rest
  }

  /**
   * `getWebhookInfo`: the row count and the latest ingest time. On an empty
   * table the `latest` query returns no row and reading its `created` throws.
   */
  function GetWebhookInfo(log: Log): (r: Result<Info, Error>)
    ensures r.Failure? <==> log == []
    ensures r.Failure? ==> r.error == TypeError
    ensures r.Success? ==> r.value.webhooks == |log|
    ensures r.Success? ==> exists i :: 0 <= i < |log| && log[i].created == r.value.latest
    ensures r.Success? ==> forall i :: 0 <= i < |log| ==> log[i].created <= r.value.latest
  {
    if log == [] then Failure(TypeError) else Success(Info(|log|, Latest(log)))
  }

  /** With a faithful codec, a stored body loads back as the value stored, after everything loaded before. */
  lemma StoreThenLoad(log: Log, c: Codec, webhook: Json, ingest: int)
    requires RoundTrips(c)
    requires GetWebhooks(log, c).Success?
    ensures var r := Store(log, c, webhook, ingest);
      GetWebhooks(r, c) ==
        Success(GetWebhooks(log, c).value + [Webhook(c.md5(c.stringify(webhook)), ingest, webhook)])
  {
    var r := Store(log, c, webhook, ingest);
    var old_hooks := GetWebhooks(log, c).value;
    var expected := old_hooks + [Webhook(c.md5(c.stringify(webhook)), ingest, webhook)];
    assert GetWebhooks(r, c).Success?;
    var got := GetWebhooks(r, c).value;
    assert forall i :: 0 <= i < |log| ==> r[i] == log[i];
    assert r[|log|] == Row(c.md5(c.stringify(webhook)), ingest, c.stringify(webhook));
    assert c.parse(c.stringify(webhook)) == Some(webhook);
    assert |got| == |expected|;
    assert forall i :: 0 <= i < |got| ==> got[i] == expected[i];
    assert got == expected;
  }

  /** A log written only through `Store` with a faithful codec always loads. */
  lemma {:induction false} StoredLogLoads(bodies: seq<Json>, times: seq<int>, c: Codec)
    requires RoundTrips(c)
    requires |times| == |bodies|
    ensures GetWebhooks(StoreAll(bodies, times, c), c).Success?
    ensures |GetWebhooks(StoreAll(bodies, times, c), c).value| == |bodies|
    decreases |bodies|
  {
    if bodies != [] {
      var n := |bodies| - 1;
      StoredLogLoads(bodies[..n], times[..n], c);
      StoreThenLoad(StoreAll(bodies[..n], times[..n], c), c, bodies[n], times[n]);
    }
  }

  /** The log after storing each body in turn, starting from an empty table. */
  function StoreAll(bodies: seq<Json>, times: seq<int>, c: Codec): Log
    requires |times| == |bodies|
    decreases |bodies|
  {
    if bodies == [] then []
    else
      var n := |bodies| - 1;
      Store(StoreAll(bodies[..n], times[..n], c), c, bodies[n], times[n])
  }

  /** The same body stored twice is two rows with the same hash: nothing is de-duplicated. */
  lemma StoreTwiceKeepsBoth(log: Log, c: Codec, webhook: Json, t1: int, t2: int)
    ensures var r := Store(Store(log, c, webhook, t1), c, webhook, t2);
      |r| == |log| + 2 && r[|log|].hash == r[|log| + 1].hash && r[|log|].body == r[|log| + 1].body
      && r[|log|].created == t1 && r[|log| + 1].created == t2
  {
  }

  /** A time that some row carries and no row exceeds is the latest one. */
  lemma LatestIsMax(log: Log, v: int)
    requires exists i :: 0 <= i < |log| && log[i].created == v
    requires forall i :: 0 <= i < |log| ==> log[i].created <= v
    ensures Latest(log) == v
  {
  }

  /** Appending a row moves the latest time to the row's time if that is later. */
  lemma LatestAppend(log: Log, row: Row)
    requires log != []
    ensures var m := Latest(log);
      Latest(log + [row]) == if row.created >= m then row.created else m
  {
    var r := log + [row];
    var m := Latest(log);
    var v := if row.created >= m then row.created else m;
    assert forall i :: 0 <= i < |log| ==> r[i] == log[i];
    var k :| 0 <= k < |log| && log[k].created == m;
    assert r[if row.created >= m then |log| else k].created == v;
    LatestIsMax(r, v);
  }

  /** Storing counts one more webhook and moves `latest` to the new time if it is later. */
  lemma InfoAfterStore(log: Log, c: Codec, webhook: Json, ingest: int)
    ensures var info := GetWebhookInfo(Store(log, c, webhook, ingest));
      && info.Success? && info.value.webhooks == |log| + 1
      && (log == [] ==> info.value.latest == ingest)
      && (log != [] ==> info.value.latest == if ingest >= Latest(log) then ingest else Latest(log))
  {
    if log != [] {
      var body := c.stringify(webhook);
      LatestAppend(log, Row(c.md5(body), ingest, body));
    }
  }
}

=== FILE: wrappers.dfy ===
/** Failure-carrying datatypes shared by the whole model. */
module Wrappers {

  /** A value that may be missing (a SQL query with no row, an invalid date, ...). */
  datatype Option<+T> = None | Some(value: T)

  /** Either a value or the error a JavaScript operation threw. */
  datatype Result<+T, +E> = Success(value: T) | Failure(error: E)
}
